=== FILE: README.md ===
# Sentiment review processor: a Dafny model

This project models the core of a web front end for sentiment analysis of customer reviews,
and proves properties of that model.

- **Bulk review processor.** A user uploads a CSV file of reviews. The processor:
  - parses the file with its own lenient CSV reader;
  - sends the reviews to a batch prediction service;
  - shows the results in a table that can be narrowed to low-confidence rows;
  - lets the user correct a row's label and save the correction;
  - exports the results as CSV.
- **Admin dashboard.** It filters users by a case-insensitive search, filters jobs by
  status, and sums up users, jobs, completed jobs and processed reviews.

Modules:

- `Text`: the JavaScript string operations the core relies on: `trim`, `toLowerCase`,
  `replace(/\s+/g, "_")`, `includes`, `join`, and the doubling of quotes.
- `Csv`: `parseCSV`.
  - `ParseCsv` is the character loop, kept as a loop over the input with its accumulators.
  - It is proved equal to the recursive specification `Scan`/`Rows`/`Records`.
  - The lemmas state what the reader does with quotes, carriage returns, trailing
    newlines, blank lines, header-only files and short or long lines.
- `Selection`: `Array.prototype.filter`, described by the strictly increasing positions
  it keeps. A filtered view is a sequence of positions in the canonical list. This
  stands in for the object identity that `findIndex(r => r === filteredRows[index])`
  relies on.
- `Reviews`: the rows of the results table and the pure steps that rebuild them:
  - ingesting predictions;
  - the low-confidence view;
  - a correction, and marking a row saved;
  - the summary counts.
- `Processor`: the component state (`rawRows`, `processedRows`, `status`, the filter
  switch, the threshold) as a class. Its handlers are methods proved against the
  `Reviews` functions. They keep an invariant: no row is ever both changed and saved,
  the rows line up with the uploads, and the threshold is a slider position.
- `Export`: the results download. It is proved to read back through the processor's own
  CSV reader as one record per row, holding exactly the review, the prediction, the
  confidence and the final label, for any review text.
- `Admin`: the dashboard's `filteredUsers`, `filteredJobs` and `stats`.

Confidences and thresholds are whole hundredths: 0.91 is `91` and the default threshold 0.7
is `70`. This is the precision `processData` rounds predictions to (`toFixed(2)`), and the
slider moves from 0.5 to 0.9 in steps of 0.05.

The model works with the outcomes of the outside calls, given as arguments:

- the batch prediction call is `Option<seq<Prediction>>`, where `None` is a failed call;
- the save call is a `bool`, its success;
- the uploaded file is its text.

Two behaviours of the code worth stating:

- `processData` fails only on a prediction list SHORTER than the uploads, because the
  lookup of a missing entry throws. A longer list is truncated; nothing checks that the
  lengths are equal.
- The summary's low-confidence count uses a fixed 0.7, not the slider's threshold.

## Model

| member | source | states |
|---|---|---|
| Text.Lower | src/components/BulkReviewProcessor.tsx:103 | `toLowerCase` maps each character by itself, keeps the length, and leaves no upper-case letter |
| Text.TrimStart | src/components/BulkReviewProcessor.tsx:103 | the result is a suffix of the input; everything removed before it is whitespace, and it does not start with whitespace |
| Text.TrimEnd | src/components/BulkReviewProcessor.tsx:103 | the result is a prefix of the input; everything removed after it is whitespace, and it does not end with whitespace |
| Text.Trim | src/components/BulkReviewProcessor.tsx:103 | no contract of its own: `trim()` is `TrimEnd` after `TrimStart`; `TrimNoSpace` and `NormalizeHeaderTrims` state what it removes |
| Text.TrimStartSpaces | src/components/BulkReviewProcessor.tsx:103 | whitespace in front of a text that does not start with whitespace is removed, and nothing else |
| Text.TrimEndSpaces | src/components/BulkReviewProcessor.tsx:103 | whitespace after a text that does not end with whitespace is removed, and nothing else |
| Text.TrimNoSpace | src/components/BulkReviewProcessor.tsx:103 | a text without whitespace is its own `trim()` |
| Text.CollapseSpaces | src/components/BulkReviewProcessor.tsx:103 | after `replace(/\s+/g, "_")` no whitespace is left |
| Text.CollapseKeepsChar | src/components/BulkReviewProcessor.tsx:103 | a character that is not whitespace is kept, in its place |
| Text.CollapseRun | src/components/BulkReviewProcessor.tsx:103 | a whole run of whitespace, up to the next other character or the end, becomes one `_` |
| Text.CollapseKeepsWord | src/components/BulkReviewProcessor.tsx:103 | a text without whitespace in front of the rest is kept as it is |
| Text.CollapseTwoParts | src/components/BulkReviewProcessor.tsx:103 | a whitespace run before a word becomes `_` followed by the word |
| Text.LowerAppend | src/components/BulkReviewProcessor.tsx:103 | `toLowerCase` of a concatenation is the concatenation of the lower-cased parts |
| Text.LowerTwoWords | src/components/BulkReviewProcessor.tsx:103 | two words with whitespace between them, lower-cased and collapsed, are the lower-cased words joined by one `_` |
| Text.CollapseKeepsNoUpper | src/components/BulkReviewProcessor.tsx:103 | collapsing whitespace brings in no upper-case letter |
| Text.CollapseNoSpace | src/components/BulkReviewProcessor.tsx:103 | a text without whitespace is left unchanged |
| Text.Contains | src/pages/AdminDashboard.tsx:113-114 | `includes` is true exactly when the text occurs at some position |
| Text.Join | src/components/BulkReviewProcessor.tsx:307-310 | no contract of its own: `join` with one separator between parts; `ScanPlainCells` and `ExportRows` state how the joined cells and lines read back |
| Text.DoubleQuotes | src/components/BulkReviewProcessor.tsx:303 | no contract of its own: `replace(/"/g, '""')`; `ScanQuoted` and `ScanQuotedCell` state that the doubled text read inside quotes gives back the original |
| Csv.NormalizeHeader | src/components/BulkReviewProcessor.tsx:103 | a normalised header has no whitespace and no upper-case letter; a header that already has neither is unchanged |
| Csv.NormalizeHeaders | src/components/BulkReviewProcessor.tsx:103 | one normalised header per header cell, position by position |
| Csv.NormalizeHeaderTrims | src/components/BulkReviewProcessor.tsx:103 | whitespace around a header is dropped: the result is the inner text lower-cased with its whitespace runs collapsed |
| Csv.NormalizeHeaderTwoWords | src/components/BulkReviewProcessor.tsx:103 | two words apart, with any whitespace around and between them, give the lower-cased words joined by `_` (` Review  Text ` gives `review_text`) |
| Csv.NormalizeHeaderIdempotent | src/components/BulkReviewProcessor.tsx:103 | normalising twice is normalising once |
| Csv.LastColumn | src/components/BulkReviewProcessor.tsx:106-108 | the column whose value a header keeps is the last column carrying that header, or none |
| Csv.CellAt | src/components/BulkReviewProcessor.tsx:107 | no contract of its own: the cell in a column, or `""` past the end of the line; `RecordShape` states the values it gives |
| Csv.FillRecord | src/components/BulkReviewProcessor.tsx:104-109 | a record's keys are exactly the headers; each key holds the cell of its last column, or `""` when the line is too short |
| Csv.ToRecord | src/components/BulkReviewProcessor.tsx:104-109 | no contract of its own: the record of one line under all the headers; `RecordShape` states its keys and values |
| Csv.ToRecordShape | src/components/BulkReviewProcessor.tsx:104-109 | a line's record has exactly the headers as keys, each holding the cell of its last column, or `""` past the end of the line |
| Csv.RecordsUnder | src/components/BulkReviewProcessor.tsx:104-110 | one record per data line, in order, each the line's record under the same headers |
| Csv.Records | src/components/BulkReviewProcessor.tsx:102-110 | no contract of its own: no records without lines, otherwise `RecordsUnder` the normalised header line; `RecordShape` states the count, keys and values |
| Csv.ParseCsv | src/components/BulkReviewProcessor.tsx:62-111 | the character loop, with its `i++` skip over a doubled quote, returns exactly the records of the specification `Parsed` |
| Csv.Scan | src/components/BulkReviewProcessor.tsx:68-96 | no contract of its own: the character loop as a recursive function; `ParseCsv` is proved equal to it, and the `Scan…` lemmas state its behaviour on quotes, commas, line ends and CR |
| Csv.Flush | src/components/BulkReviewProcessor.tsx:97-100 | no contract of its own: a pending field or line is closed at the end of input, even inside an open quote; `TrailingNewlineRows` and `UnterminatedQuoteKeepsRest` state its two cases |
| Csv.Rows | src/components/BulkReviewProcessor.tsx:62-100 | no contract of its own: the lines of cells of a text; `ParseCsv`, `BlankLineRow` and `ExportRows` state what they are |
| Csv.Parsed | src/components/BulkReviewProcessor.tsx:62-111 | no contract of its own: what `parseCSV` returns; `ParseCsv` is proved equal to it and `ExportRoundTrip` inverts it on the export |
| Csv.ScanAppend | src/components/BulkReviewProcessor.tsx:68-96 | reading a concatenation is reading its parts in turn, unless a quote ending the first part meets a quote starting the second |
| Csv.ScanKeepsRows | src/components/BulkReviewProcessor.tsx:85-91 | finished lines are only appended to, never revised |
| Csv.ScanWithoutNewline | src/components/BulkReviewProcessor.tsx:87-91 | input without `\n` finishes no line |
| Csv.ScanQuoted | src/components/BulkReviewProcessor.tsx:70-80 | inside quotes, `""` gives one `"`, and `,`, `\n` and `\r` are kept; the closing quote ends quoted mode |
| Csv.ScanUnterminated | src/components/BulkReviewProcessor.tsx:70-80 | inside an open quote, input without a quote is taken into the field as it is |
| Csv.ScanOutsideQuotes | src/components/BulkReviewProcessor.tsx:81-95 | input without `"` never enters quoted mode |
| Csv.ScanIgnoresCR | src/components/BulkReviewProcessor.tsx:92 | on input without quotes, the scan matches the scan of the text with every `\r` removed |
| Csv.CrOutsideQuotes | src/components/BulkReviewProcessor.tsx:92 | a `\r` read outside quotes is dropped wherever it stands, unless removing it would bring a closing and an opening quote together |
| Csv.CrlfLineEnd | src/components/BulkReviewProcessor.tsx:92 | a CRLF line end read outside quotes scans like an LF line end, whatever quoted fields come before or after it |
| Csv.CrlfLineEndParses | src/components/BulkReviewProcessor.tsx:87-100 | replacing a CRLF line end outside quotes by LF leaves the parsed records unchanged, for files with quoted fields too |
| Csv.HeaderOnlyParsesEmpty | src/components/BulkReviewProcessor.tsx:97-104 | an empty file or a header line alone, with or without a final newline, gives no records |
| Csv.TrailingNewlineAddsNoRecord | src/components/BulkReviewProcessor.tsx:87-100 | outside quotes, a final newline leaves the lines as they were exactly when the last line holds a field or a comma (then no record is added); after an empty last line it adds a line of one empty cell |
| Csv.TrailingNewlineRows | src/components/BulkReviewProcessor.tsx:87-100 | from any reader state, a final newline adds no line after a last line that holds something, and one line of one empty cell after an empty one |
| Csv.BlankLineGivesEmptyRecord | src/components/BulkReviewProcessor.tsx:87-108 | a blank line anywhere outside quotes gives a record, the one after the lines finished before it, whose every value is `""` |
| Csv.BlankLineRow | src/components/BulkReviewProcessor.tsx:87-91 | a blank line outside quotes becomes the line of one empty cell right after the lines finished before it |
| Csv.UnterminatedQuoteKeepsRest | src/components/BulkReviewProcessor.tsx:82-100 | a quote never closed keeps the whole rest of the input as the last field |
| Csv.CrlfParsesLikeLf | src/components/BulkReviewProcessor.tsx:92 | on input without quotes, CRLF and LF line ends give the same records everywhere at once |
| Csv.RecordShape | src/components/BulkReviewProcessor.tsx:102-110 | there is one record per data line; its keys are exactly the normalised headers; each value is the cell of the header's last column, or `""` |
| Selection.KeptIndices | src/components/BulkReviewProcessor.tsx:245 | the positions `filter` keeps are strictly increasing, and a position is kept exactly when its element satisfies the predicate |
| Selection.Filter | src/components/BulkReviewProcessor.tsx:245 | `filter` keeps every element that satisfies the predicate and no other, in order, as a selection of positions |
| Selection.KeptIndicesUnique | src/components/BulkReviewProcessor.tsx:245 | any strictly increasing selection of exactly the satisfying positions is the one `filter` makes |
| Selection.SelectsUnique | src/pages/AdminDashboard.tsx:112-119 | two order-preserving selections by the same predicate are equal |
| Selection.FilterKeepsAll | src/pages/AdminDashboard.tsx:112-119 | a predicate true of every element keeps the whole list |
| Selection.FilterKeepsNone | src/pages/AdminDashboard.tsx:117-119 | a predicate true of no element keeps nothing |
| Selection.KeptIndicesAgree | src/components/BulkReviewProcessor.tsx:245 | filtering depends only on the predicate's verdict at each position |
| Reviews.Predicted | src/components/BulkReviewProcessor.tsx:221-228 | no contract of its own: the row built for one review from its prediction; `Ingest` states every field of it |
| Reviews.Ingest | src/components/BulkReviewProcessor.tsx:221-228 | fails exactly when the prediction list is shorter than the uploads; otherwise one row per upload with the same review, the prediction's label and confidence, `correctedSentiment` set to the prediction's label, not changed and not saved |
| Reviews.IngestIgnoresExtraPredictions | src/components/BulkReviewProcessor.tsx:221-228 | predictions beyond the number of uploads make no difference |
| Reviews.Below | src/components/BulkReviewProcessor.tsx:245 | no contract of its own: confidence under the threshold; `FilteredIndices` states the rows it keeps |
| Reviews.FilteredIndices | src/components/BulkReviewProcessor.tsx:242-246 | the view is strictly increasing positions of the rows: none when nothing is processed, all of them with the filter off, and otherwise exactly the rows with confidence under the threshold |
| Reviews.FilteredRows | src/components/BulkReviewProcessor.tsx:242-246 | the shown rows are all rows with the filter off, and the order-preserving filter below the threshold with it on; every shown row is a processed row |
| Reviews.Resolve | src/components/BulkReviewProcessor.tsx:249-250 | a view index resolves exactly when it is inside the view, to the position the view holds at that index (the identity of the shown row, not an equal row elsewhere), whose row is the one shown there |
| Reviews.Correct | src/components/BulkReviewProcessor.tsx:252-262 | only the chosen row changes: it gets the new label, `hasChanged` exactly when the label differs from the prediction, and is not saved; length, order and other rows are kept, and so is the changed-or-saved invariant |
| Reviews.FinalSentiment | src/components/BulkReviewProcessor.tsx:306 | no contract of its own: `correctedSentiment \|\| sentiment`; `Correct`, `SaveRequestFor`, `CorrectThenSave` and `ExportRoundTrip` state the label it gives |
| Reviews.SaveRequestFor | src/components/BulkReviewProcessor.tsx:272-276 | the save request carries the review, the prediction and `correctedSentiment \|\| sentiment`; for a changed row the two labels differ |
| Reviews.MarkSaved | src/components/BulkReviewProcessor.tsx:278-282 | only the row at that position changes, to not changed and saved, with its label kept; the invariant is kept |
| Reviews.SameConfidencesSameView | src/components/BulkReviewProcessor.tsx:242-246 | rows whose confidences agree position by position show the same view |
| Reviews.CorrectKeepsView | src/components/BulkReviewProcessor.tsx:248-263 | a correction leaves the view unchanged, so every view index names the same row as before |
| Reviews.MarkSavedKeepsView | src/components/BulkReviewProcessor.tsx:278-282 | marking a row saved leaves the view unchanged |
| Reviews.CorrectThenSave | src/components/BulkReviewProcessor.tsx:255-280 | choosing the predicted label again withdraws the change; a saved correction keeps its label; the request sends the chosen label |
| Reviews.HasSentiment | src/components/BulkReviewProcessor.tsx:329-331 | no contract of its own: the label test of the summary counts; `Summary` and `SentimentCountsAddUp` state the counts |
| Reviews.Summary | src/components/BulkReviewProcessor.tsx:327-334 | no summary without rows; otherwise the total is the number of rows, each label count is the number of rows the filter for that label keeps, the three add up to the total, and the low-confidence count is the size of the view under 0.7 |
| Reviews.SentimentCountsAddUp | src/components/BulkReviewProcessor.tsx:329-331 | each row has exactly one of the three labels, so the counts add up to the number of rows |
| Processor.UploadedReviews | src/components/BulkReviewProcessor.tsx:195-196 | one review per parsed record: its `reviews` value, or `""` when it has none |
| Processor.BulkReviewProcessor.constructor | src/components/BulkReviewProcessor.tsx:156-161 | starts idle with no rows, the filter off and the threshold at 0.7, satisfying the invariant |
| Processor.BulkReviewProcessor.ParseFile | src/components/BulkReviewProcessor.tsx:182-211 | clears the results; keeps the parsed reviews and becomes uploaded, or keeps none and stays idle for a file without records |
| Processor.BulkReviewProcessor.ProcessData | src/components/BulkReviewProcessor.tsx:213-240 | sends the uploaded reviews; on an answer covering them all the rows become their ingest and the status done; otherwise the previous rows stay and the status is uploaded |
| Processor.BulkReviewProcessor.SetShowOnlyLowConfidence | src/components/BulkReviewProcessor.tsx:507-511 | the switch (off by default, line 160) changes the view only, to the one for the new setting |
| Processor.BulkReviewProcessor.SetConfidenceThreshold | src/components/BulkReviewProcessor.tsx:519-524 | the slider takes 0.5 to 0.9 in steps of 0.05 and changes the view only |
| Processor.BulkReviewProcessor.HandleCorrectionChange | src/components/BulkReviewProcessor.tsx:248-263 | the rows become the correction of the resolved row, or stay unchanged for an index outside the view; the view and the rest of the state stay as they were |
| Processor.BulkReviewProcessor.HandleSaveCorrection | src/components/BulkReviewProcessor.tsx:265-295 | sends the resolved row's request; only on success is that position marked saved; an index outside the view sends nothing and changes nothing |
| Export.SentimentText | src/components/BulkReviewProcessor.tsx:304 | a label is written as a non-empty word without quotes, commas or line breaks |
| Export.ConfidenceText | src/components/BulkReviewProcessor.tsx:305 | a confidence is written as a non-empty number without quotes, commas or line breaks |
| Export.DigitsValueOfDigits | src/components/BulkReviewProcessor.tsx:305 | the decimal digits of a number denote that number |
| Export.ReadUnsignedText | src/components/BulkReviewProcessor.tsx:305 | the written magnitude, with the trailing zeros of its fraction dropped, reads back as the hundredths it came from |
| Export.ConfidenceTextReadsBack | src/components/BulkReviewProcessor.tsx:305 | the written confidence reads back as exactly the confidence, negative ones included |
| Export.Quote | src/components/BulkReviewProcessor.tsx:303 | no contract of its own: the review in quotes with its quotes doubled; `ScanQuotedCell` states that it reads back as the review |
| Export.LineCells | src/components/BulkReviewProcessor.tsx:302-307 | no contract of its own: the quoted review, the prediction, the confidence and the final label; `LineQuotesFirstCell` and `ExportRoundTrip` state what they read back as |
| Export.Lines | src/components/BulkReviewProcessor.tsx:301-308 | one line per processed row, its four cells joined by commas |
| Export.ExportText | src/components/BulkReviewProcessor.tsx:298-310 | no contract of its own: the header line and the row lines joined by newlines; `ExportRoundTrip` states what it parses back to |
| Export.ScanQuotedCell | src/components/BulkReviewProcessor.tsx:303 | the quoted review, its quotes doubled, reads back as the review itself |
| Export.ScanPlainCells | src/components/BulkReviewProcessor.tsx:300-307 | cells without quotes, commas or line breaks, joined by commas, read back as those cells |
| Export.LinesQuoteFirstCell | src/components/BulkReviewProcessor.tsx:301-308 | each row line is the row's cells with only the review quoted |
| Export.ExportRows | src/components/BulkReviewProcessor.tsx:298-310 | the export reads back as the header line followed by each row's cells |
| Export.HeadersNormal | src/components/BulkReviewProcessor.tsx:298 | the export's headers are unchanged by header normalisation |
| Export.HeaderRecord | src/components/BulkReviewProcessor.tsx:298 | four cells under the export's headers give the record with each header holding its cell |
| Export.RecordsUnderHeaders | src/components/BulkReviewProcessor.tsx:102-110 | lines under a header line that normalisation keeps give one record per line under those headers |
| Export.ExportRecords | src/components/BulkReviewProcessor.tsx:298-310 | the export reads back as one record per row, built from the row's cells |
| Export.ExportRoundTrip | src/components/BulkReviewProcessor.tsx:298-310 | parsing the export gives one record per processed row holding its review, prediction, confidence and `correctedSentiment \|\| sentiment`, whatever quotes, commas or newlines the review holds |
| Admin.StatusName | src/pages/AdminDashboard.tsx:38 | no status is written as `"all"` |
| Admin.Matches | src/pages/AdminDashboard.tsx:112-115 | no contract of its own: the search predicate; `FilteredUsers` and `SearchIgnoresCase` state which users it keeps |
| Admin.FilteredUsers | src/pages/AdminDashboard.tsx:112-115 | keeps a user exactly when the lower-cased name or e-mail contains the lower-cased search, in order |
| Admin.EmptySearchKeepsAll | src/pages/AdminDashboard.tsx:112-115 | an empty search keeps every user, in order |
| Admin.SearchIgnoresCase | src/pages/AdminDashboard.tsx:112-115 | two searches that lower-case alike keep the same users |
| Admin.Passes | src/pages/AdminDashboard.tsx:117-119 | no contract of its own: the status predicate; `FilteredJobs` states which jobs it keeps |
| Admin.FilteredJobs | src/pages/AdminDashboard.tsx:117-119 | `"all"` keeps every job; a status name keeps exactly the jobs with that status, in order; any other value keeps none |
| Admin.FilteredJobsIdempotent | src/pages/AdminDashboard.tsx:117-119 | filtering the filtered jobs again changes nothing |
| Admin.HasStatus | src/pages/AdminDashboard.tsx:123 | no contract of its own: the completed-status test; `DashboardStats` and `CountAllKept` state the count |
| Admin.ReviewTotal | src/pages/AdminDashboard.tsx:125 | no contract of its own: `reduce` adding the counts from the left; `ReviewTotalAppend` and `ReviewTotalBoundsEach` state its additivity and bounds |
| Admin.DashboardStats | src/pages/AdminDashboard.tsx:121-126 | the totals are the list lengths; completed jobs are the jobs with that status, at most all jobs, and all of them exactly when every job is completed; reviews processed is the sum of the counts |
| Admin.CountAllKept | src/pages/AdminDashboard.tsx:123 | a filter keeps as many elements as the list has exactly when every element passes |
| Admin.ReviewTotalAppend | src/pages/AdminDashboard.tsx:125 | the sum over two lists in turn is the sum of their sums |
| Admin.ReviewTotalBoundsEach | src/pages/AdminDashboard.tsx:125 | with no negative counts the sum is non-negative and at least each job's count |

## Left out

- The network wrappers `predictBatch`, `predictSingle` and `saveCorrection` (src/components/BulkReviewProcessor.tsx:112-153) are not modelled. Their outcomes are method arguments: a prediction list or failure, and success or failure.
- Reading the uploaded file, the template and results downloads (Blob, URL, anchor), toasts, error messages and all rendering are left out. This includes the 20-row slice of the table at line 560: indices are taken against the whole filtered view.
- Floating point is left out, because confidences are whole hundredths:
  - `parseFloat(...) || 0` on the uploaded confidence column;
  - the `toFixed(2)` rounding of predicted confidences;
  - JavaScript's number-to-string beyond two decimals, including exponent notation.
- The uploaded `sentiment` and `confidence_score` columns (lines 197-198) are not kept. `processData` overwrites both before anything reads them, so `rawRows` holds the reviews only.
- Async interleavings are left out: overlapping saves, the last-completed-wins order of their updates, and React's batching of state updates. Each handler is one atomic step that resolves the row's position before the outside call.
- `Processing` is a transient status. `ProcessData` passes through it but never returns in it, because the batch call's outcome is given.
- `absaCategory` is only passed on to the prediction service, so it is left out.
- Characters are Unicode scalar values, not UTF-16 code units, and `toLowerCase` is modelled on ASCII letters only.
- Records are maps. JavaScript's key order and a header named `__proto__` are not modelled.
- Reviews.Summary: the three label counts add up to the total only because a prediction's label is one of `positive`, `negative` and `neutral`. That is the type the source declares; the service's answer is not checked.
- Admin.DashboardStats: `reviewCount` is a whole number, so the floating-point sum of `reduce` is not modelled.
- The chart component, the login, signup, profile and dashboard pages, the header and badge components, and the admin page's mock data, redirect and refresh timer are not part of this model.

=== FILE: Admin.dfy ===
/** The admin dashboard's derived lists and counts: the user search, the job status
    filter and the summary cards, all computed from the `users` and `jobs` lists,
    which the page never changes. */
module Admin {
  import opened Text
  import opened Selection

  datatype User = User(id: string, name: string, email: string, role: string, createdAt: string)

  datatype JobStatus = Pending | Processing | Completed | Failed

  datatype Job = Job(id: string, status: JobStatus, reviewCount: int, createdAt: string)

  /** The summary cards. */
  datatype AdminStats = AdminStats(totalUsers: nat, totalJobs: nat, completedJobs: nat, reviewsProcessed: int)

  /** The status filter's value for showing every job. */
  const AllJobs: string := "all"

  /** How a status is written, and so the filter value that selects it. */
  function StatusName(s: JobStatus): (t: string)
    ensures t != AllJobs
  {
    match s
    case Pending => "pending"
    case Processing => "processing"
    case Completed => "completed"
    case Failed => "failed"
  }

  /** Different statuses are written differently. */
  lemma StatusNameInjective(s: JobStatus, s': JobStatus)
    ensures StatusName(s) == StatusName(s') ==> s == s'
  {
  }

  // ---------------------------------------------------------------------------
  // The user search

  /** Whether a user's lower-cased name or e-mail contains the lower-cased search. */
  function Matches(search: string): User -> bool {
    (u: User) => Contains(Lower(u.name), Lower(search)) || Contains(Lower(u.email), Lower(search))
  }

  /** `filteredUsers`: the users the search keeps, in their order. */
  function FilteredUsers(users: seq<User>, search: string): (shown: seq<User>)
    ensures Selects(users, Matches(search), shown)
    ensures forall u :: u in shown <==>
      (u in users && (Contains(Lower(u.name), Lower(search)) || Contains(Lower(u.email), Lower(search))))
  {
    Filter(users, Matches(search))
  }

  /** Every text contains the empty text. */
  lemma ContainsEmpty(s: string)
    ensures Contains(s, "")
  {
    assert OccursAt(s, "", 0);
  }

  /** An empty search keeps every user, in order. */
  lemma EmptySearchKeepsAll(users: seq<User>)
    ensures FilteredUsers(users, "") == users
  {
    forall i | 0 <= i < |users| ensures Matches("")(users[i]) {
      ContainsEmpty(Lower(users[i].name));
    }
    FilterKeepsAll(users, Matches(""));
  }

  /** The search ignores the case of the search text. */
  lemma SearchIgnoresCase(users: seq<User>, search: string, other: string)
    requires Lower(search) == Lower(other)
    ensures FilteredUsers(users, search) == FilteredUsers(users, other)
  {
    SelectsUnique(users, Matches(search), FilteredUsers(users, search), FilteredUsers(users, other));
  }

  // ---------------------------------------------------------------------------
  // The job filter

  /** Whether a job passes the status filter `filter`. */
  function Passes(filter: string): Job -> bool {
    (j: Job) => filter == AllJobs || StatusName(j.status) == filter
  }

  /** `filteredJobs`: every job under `"all"`, otherwise the jobs whose status is
      written as the filter value, in their order. */
  function FilteredJobs(jobs: seq<Job>, filter: string): (shown: seq<Job>)
    ensures Selects(jobs, Passes(filter), shown)
    ensures filter == AllJobs ==> shown == jobs
    ensures forall s :: filter == StatusName(s) ==> forall j :: j in shown <==> j in jobs && j.status == s
    ensures filter != AllJobs && (forall s :: filter != StatusName(s)) ==> shown == []
  {
    assert filter == AllJobs ==> Filter(jobs, Passes(filter)) == jobs by {
      if filter == AllJobs {
        FilterKeepsAll(jobs, Passes(filter));
      }
    }
    assert (forall s :: filter != StatusName(s)) && filter != AllJobs ==> Filter(jobs, Passes(filter)) == [] by {
      if (forall s :: filter != StatusName(s)) && filter != AllJobs {
        FilterKeepsNone(jobs, Passes(filter));
      }
    }
    forall s | filter == StatusName(s) ensures forall j :: Passes(filter)(j) <==> j.status == s {
      forall j ensures Passes(filter)(j) <==> j.status == s {
        StatusNameInjective(s, j.status);
      }
    }
    Filter(jobs, Passes(filter))
  }

  /** Filtering by a status and then by the same status again changes nothing. */
  lemma FilteredJobsIdempotent(jobs: seq<Job>, filter: string)
    ensures FilteredJobs(FilteredJobs(jobs, filter), filter) == FilteredJobs(jobs, filter)
  {
    var shown := FilteredJobs(jobs, filter);
    forall k | 0 <= k < |shown| ensures Passes(filter)(shown[k]) {
      assert shown[k] in shown;
    }
    FilterKeepsAll(shown, Passes(filter));
  }

  // ---------------------------------------------------------------------------
  // The summary cards

  function HasStatus(s: JobStatus): Job -> bool {
    (j: Job) => j.status == s
  }

  /** `jobs.reduce((acc, j) => acc + j.reviewCount, 0)`: the counts added from the left. */
  function ReviewTotal(jobs: seq<Job>): int
    decreases |jobs|
  {
    if jobs == [] then 0 else ReviewTotal(jobs[..|jobs| - 1]) + jobs[|jobs| - 1].reviewCount
  }

  /** `stats`. */
  function DashboardStats(users: seq<User>, jobs: seq<Job>): (st: AdminStats)
    ensures st.totalUsers == |users| && st.totalJobs == |jobs|
    ensures st.completedJobs <= st.totalJobs
    ensures st.completedJobs == |Filter(jobs, HasStatus(Completed))|
    ensures st.completedJobs == st.totalJobs <==> forall j :: j in jobs ==> j.status == Completed
    ensures st.reviewsProcessed == ReviewTotal(jobs)
  {
    var done := Filter(jobs, HasStatus(Completed));
    assert |done| == |jobs| <==> forall j :: j in jobs ==> j.status == Completed by {
      CountAllKept(jobs, HasStatus(Completed));
    }
    AdminStats(|users|, |jobs|, |done|, ReviewTotal(jobs))
  }

  /** A filter keeps as many elements as the list has exactly when it keeps them all. */
  lemma CountAllKept<T>(xs: seq<T>, p: T -> bool)
    ensures |Filter(xs, p)| == |xs| <==> forall x :: x in xs ==> p(x)
  {
    var ix := KeptIndices(xs, p);
    if forall x :: x in xs ==> p(x) {
      forall i | 0 <= i < |xs| ensures p(xs[i]) {
        assert xs[i] in xs;
      }
      FilterKeepsAll(xs, p);
    } else {
      var x :| x in xs && !p(x);
      var i :| 0 <= i < |xs| && xs[i] == x;
      KeptBelowLength(xs, p, i);
    }
  }

  /** A position the filter drops leaves it fewer elements than the list. */
  lemma KeptBelowLength<T>(xs: seq<T>, p: T -> bool, d: nat)
    requires d < |xs| && !p(xs[d])
    ensures |KeptIndices(xs, p)| < |xs|
  {
    var ix := KeptIndices(xs, p);
    IncreasingMissing(ix, |xs|, d);
  }

  /** The review total of two lists one after the other is the sum of their totals. */
  lemma {:induction false} ReviewTotalAppend(a: seq<Job>, b: seq<Job>)
    ensures ReviewTotal(a + b) == ReviewTotal(a) + ReviewTotal(b)
    decreases |b|
  {
    if b == [] {
      assert a + b == a;
    } else {
      var n := |b| - 1;
      assert (a + b)[..|a + b| - 1] == a + b[..n];
      ReviewTotalAppend(a, b[..n]);
    }
  }

  /** With no negative counts, the total bounds each job's count. */
  lemma {:induction false} ReviewTotalBoundsEach(jobs: seq<Job>)
    requires forall k :: 0 <= k < |jobs| ==> jobs[k].reviewCount >= 0
    ensures ReviewTotal(jobs) >= 0
    ensures forall k :: 0 <= k < |jobs| ==> jobs[k].reviewCount <= ReviewTotal(jobs)
    decreases |jobs|
  {
    if jobs != [] {
      var front := jobs[..|jobs| - 1];
      ReviewTotalBoundsEach(front);
      assert forall k :: 0 <= k < |front| ==> front[k] == jobs[k];
    }
  }
}

=== FILE: Csv.dfy ===
/** `parseCSV` of the bulk review processor: a lenient reader of comma-separated
    text with the double-quote rules of section 2 of RFC 4180 (quoted fields, `""`
    for a literal quote), turning the first line into normalised headers and every
    later line into a header-to-cell record. */
module Csv {
  import opened Text

  /** The scanner's accumulators: the field being read, the fields of the current
      line so far, the finished lines, and whether a quoted field is open. */
  datatype Scanner = Scanner(cur: string, row: seq<string>, rows: seq<seq<string>>, inQuotes: bool)

  const Start := Scanner("", [], [], false)

  /** A record maps each normalised header to the cell under it. */
  type Record = map<string, string>

  /** The character loop of the reader, run over the rest `s` of the input from state `st`.
      Inside quotes a `"` followed by another `"` stands for one quote, a lone `"` closes
      the field, and everything else is kept. Outside quotes a `"` opens a quoted field
      (wherever it is), `,` ends the field, `\n` ends the field and the line, and `\r` is
      dropped. */
  function Scan(s: string, st: Scanner): Scanner
    decreases |s|
  {
    if s == [] then st
    else if st.inQuotes then
      if s[0] == '"' then
        if |s| > 1 && s[1] == '"' then Scan(s[2..], st.(cur := st.cur + "\""))
        else Scan(s[1..], st.(inQuotes := false))
      else Scan(s[1..], st.(cur := st.cur + [s[0]]))
    else if s[0] == '"' then Scan(s[1..], st.(inQuotes := true))
    else if s[0] == ',' then Scan(s[1..], st.(row := st.row + [st.cur], cur := ""))
    else if s[0] == '\n' then Scan(s[1..], Scanner("", [], st.rows + [st.row + [st.cur]], false))
    else if s[0] == '\r' then Scan(s[1..], st)
    else Scan(s[1..], st.(cur := st.cur + [s[0]]))
  }

  /** End of input: a pending field or line is closed, even inside an open quote. */
  function Flush(st: Scanner): seq<seq<string>> {
    if |st.cur| > 0 || |st.row| > 0 then st.rows + [st.row + [st.cur]] else st.rows
  }

  /** The lines of cells of `text`, the header line first. */
  function Rows(text: string): seq<seq<string>> {
    Flush(Scan(text, Start))
  }

  /** Header normalisation: `trim()`, `toLowerCase()`, then each whitespace run to `_`. */
  function NormalizeHeader(h: string): (r: string)
    ensures NoSpace(r) && NoUpper(r)
    ensures NoSpace(h) && NoUpper(h) ==> r == h
  {
    var t := Trim(h);
    assert NoSpace(h) ==> t == h by {
      if NoSpace(h) {
        TrimNoSpace(h);
      }
    }
    var l := Lower(t);
    assert NoUpper(t) ==> l == t;
    CollapseKeepsNoUpper(l);
    assert NoSpace(l) ==> CollapseSpaces(l) == l by {
      if NoSpace(l) {
        CollapseNoSpace(l);
      }
    }
    CollapseSpaces(l)
  }

  function NormalizeHeaders(hs: seq<string>): (r: seq<string>)
    ensures |r| == |hs| && forall j :: 0 <= j < |hs| ==> r[j] == NormalizeHeader(hs[j])
  {
    seq(|hs|, j requires 0 <= j < |hs| => NormalizeHeader(hs[j]))
  }

  /** The cell in column `j`, or `""` when the line is shorter (`r[idx] ?? ""`). */
  function CellAt(cells: seq<string>, j: int): string {
    if 0 <= j < |cells| then cells[j] else ""
  }

  /** The last of the first `n` columns whose header is `h`, or -1 when there is none. */
  function LastColumn(hs: seq<string>, h: string, n: nat): (j: int)
    requires n <= |hs|
    ensures -1 <= j < n
    ensures j >= 0 ==> hs[j] == h && forall k :: j < k < n ==> hs[k] != h
    ensures j == -1 ==> forall k :: 0 <= k < n ==> hs[k] != h
  {
    if n == 0 then -1 else if hs[n - 1] == h then n - 1 else LastColumn(hs, h, n - 1)
  }

  /** The record built by assigning, for the first `n` headers in order, header `j` to
      cell `j`: its keys are those headers, and a repeated header keeps the cell of
      its last column. */
  function FillRecord(hs: seq<string>, cells: seq<string>, n: nat): (o: Record)
    requires n <= |hs|
    ensures forall h {:trigger h in o} :: h in o <==> h in hs[..n]
    ensures forall h {:trigger o[h]} :: h in o ==> o[h] == CellAt(cells, LastColumn(hs, h, n))
    decreases n
  {
    if n == 0 then map[]
    else FillRecord(hs, cells, n - 1)[hs[n - 1] := CellAt(cells, n - 1)]
  }

  /** The record of one data line under the given headers. */
  function ToRecord(hs: seq<string>, cells: seq<string>): Record {
    FillRecord(hs, cells, |hs|)
  }

  /** One record per line, under the given headers. */
  function RecordsUnder(hs: seq<string>, lines: seq<seq<string>>): (rs: seq<Record>)
    ensures |rs| == |lines| && forall k :: 0 <= k < |lines| ==> rs[k] == ToRecord(hs, lines[k])
  {
    seq(|lines|, k requires 0 <= k < |lines| => ToRecord(hs, lines[k]))
  }

  /** The data lines as records, under the normalised header line. */
  function Records(rows: seq<seq<string>>): seq<Record> {
    if rows == [] then [] else RecordsUnder(NormalizeHeaders(rows[0]), rows[1..])
  }

  /** What `parseCSV(text)` returns. */
  function Parsed(text: string): seq<Record> {
    Records(Rows(text))
  }

  /** `parseCSV`: the single pass over the characters, then the records. */
  method ParseCsv(text: string) returns (records: seq<Record>)
    ensures records == Parsed(text)
  {
    var cur: string, row: seq<string>, rows: seq<seq<string>> := "", [], [];
    var inQuotes := false;
    var i := 0;
    while i < |text|
      invariant 0 <= i <= |text|
      invariant Scan(text[i..], Scanner(cur, row, rows, inQuotes)) == Scan(text, Start)
    {
      var ch := text[i];
      assert text[i..][0] == ch && text[i..][1..] == text[i + 1..];
      if inQuotes {
        if ch == '"' {
          if i + 1 < |text| && text[i + 1] == '"' {
            assert text[i..][1] == text[i + 1] && text[i..][2..] == text[i + 2..];
            cur := cur + "\"";
            i := i + 1;
          } else {
            inQuotes := false;
          }
        } else {
          cur := cur + [ch];
        }
      } else {
        if ch == '"' {
          inQuotes := true;
        } else if ch == ',' {
          row := row + [cur];
          cur := "";
        } else if ch == '\n' {
          row := row + [cur];
          rows := rows + [row];
          row := [];
          cur := "";
        } else if ch != '\r' {
          cur := cur + [ch];
        }
      }
      i := i + 1;
    }
    assert text[|text|..] == [];
    if |cur| > 0 || |row| > 0 {
      row := row + [cur];
      rows := rows + [row];
    }
    records := Records(rows);
  }

  // ---------------------------------------------------------------------------
  // Properties of the scan

  /** Scanning a concatenation is scanning its parts one after the other, unless a
      quote that ends `a` could pair with a quote that starts `b`. */
  lemma {:induction false} ScanAppend(a: string, b: string, st: Scanner)
    requires a == [] || b == [] || a[|a| - 1] != '"' || b[0] != '"'
    ensures Scan(a + b, st) == Scan(b, Scan(a, st))
    decreases |a|
  {
    if a == [] {
      assert a + b == b;
    } else {
      var ab := a + b;
      assert ab[0] == a[0];
      if st.inQuotes && a[0] == '"' {
        if |a| > 1 {
          assert ab[1] == a[1];
          if a[1] == '"' {
            assert ab[2..] == a[2..] + b;
            ScanAppend(a[2..], b, st.(cur := st.cur + "\""));
          } else {
            assert ab[1..] == a[1..] + b;
            ScanAppend(a[1..], b, st.(inQuotes := false));
          }
        } else {
          assert ab[1..] == b;
          assert Scan(a, st) == st.(inQuotes := false);
        }
      } else {
        assert ab[1..] == a[1..] + b;
        if st.inQuotes {
          ScanAppend(a[1..], b, st.(cur := st.cur + [a[0]]));
        } else if a[0] == '"' {
          ScanAppend(a[1..], b, st.(inQuotes := true));
        } else if a[0] == ',' {
          ScanAppend(a[1..], b, st.(row := st.row + [st.cur], cur := ""));
        } else if a[0] == '\n' {
          ScanAppend(a[1..], b, Scanner("", [], st.rows + [st.row + [st.cur]], false));
        } else if a[0] == '\r' {
          ScanAppend(a[1..], b, st);
        } else {
          ScanAppend(a[1..], b, st.(cur := st.cur + [a[0]]));
        }
      }
    }
  }

  /** Finished lines are never revised: the scan only appends to them. */
  lemma {:induction false} ScanKeepsRows(s: string, st: Scanner)
    ensures st.rows <= Scan(s, st).rows
    decreases |s|
  {
    if s != [] {
      if st.inQuotes {
        if s[0] == '"' && |s| > 1 && s[1] == '"' {
          ScanKeepsRows(s[2..], st.(cur := st.cur + "\""));
        } else if s[0] == '"' {
          ScanKeepsRows(s[1..], st.(inQuotes := false));
        } else {
          ScanKeepsRows(s[1..], st.(cur := st.cur + [s[0]]));
        }
      } else if s[0] == '"' {
        ScanKeepsRows(s[1..], st.(inQuotes := true));
      } else if s[0] == ',' {
        ScanKeepsRows(s[1..], st.(row := st.row + [st.cur], cur := ""));
      } else if s[0] == '\n' {
        ScanKeepsRows(s[1..], Scanner("", [], st.rows + [st.row + [st.cur]], false));
      } else if s[0] == '\r' {
        ScanKeepsRows(s[1..], st);
      } else {
        ScanKeepsRows(s[1..], st.(cur := st.cur + [s[0]]));
      }
    }
  }

  /** Without a newline character no line is finished. */
  lemma {:induction false} ScanWithoutNewline(s: string, st: Scanner)
    requires forall i :: 0 <= i < |s| ==> s[i] != '\n'
    ensures Scan(s, st).rows == st.rows
    decreases |s|
  {
    if s != [] {
      if st.inQuotes {
        if s[0] == '"' && |s| > 1 && s[1] == '"' {
          ScanWithoutNewline(s[2..], st.(cur := st.cur + "\""));
        } else if s[0] == '"' {
          ScanWithoutNewline(s[1..], st.(inQuotes := false));
        } else {
          ScanWithoutNewline(s[1..], st.(cur := st.cur + [s[0]]));
        }
      } else if s[0] == '"' {
        ScanWithoutNewline(s[1..], st.(inQuotes := true));
      } else if s[0] == ',' {
        ScanWithoutNewline(s[1..], st.(row := st.row + [st.cur], cur := ""));
      } else if s[0] == '\r' {
        ScanWithoutNewline(s[1..], st);
      } else {
        ScanWithoutNewline(s[1..], st.(cur := st.cur + [s[0]]));
      }
    }
  }

  /** Inside quotes, the export's escaping of any text `s` (quotes doubled) followed by
      the closing quote reads back as exactly `s`: `""` gives one `"`, and commas,
      newlines and carriage returns are kept as they are. */
  lemma {:induction false} ScanQuoted(s: string, rest: string, st: Scanner)
    requires st.inQuotes
    requires rest == [] || rest[0] != '"'
    ensures Scan(DoubleQuotes(s) + "\"" + rest, st) == Scan(rest, st.(cur := st.cur + s, inQuotes := false))
    decreases |s|
  {
    var t := DoubleQuotes(s) + "\"" + rest;
    if s == [] {
      assert t == "\"" + rest;
      assert t[0] == '"' && t[1..] == rest;
      assert st.cur + s == st.cur;
    } else if s[0] == '"' {
      assert t == "\"\"" + (DoubleQuotes(s[1..]) + "\"" + rest);
      assert t[0] == '"' && t[1] == '"';
      assert t[2..] == DoubleQuotes(s[1..]) + "\"" + rest;
      ScanQuoted(s[1..], rest, st.(cur := st.cur + "\""));
      assert st.cur + "\"" + s[1..] == st.cur + s;
    } else {
      assert t == [s[0]] + (DoubleQuotes(s[1..]) + "\"" + rest);
      assert t[0] == s[0] && t[1..] == DoubleQuotes(s[1..]) + "\"" + rest;
      ScanQuoted(s[1..], rest, st.(cur := st.cur + [s[0]]));
      assert st.cur + [s[0]] + s[1..] == st.cur + s;
    }
  }

  /** An open quote that is never closed takes the rest of the input into the field. */
  lemma {:induction false} ScanUnterminated(s: string, st: Scanner)
    requires st.inQuotes
    requires forall i :: 0 <= i < |s| ==> s[i] != '"'
    ensures Scan(s, st) == st.(cur := st.cur + s)
    decreases |s|
  {
    if s == [] {
      assert st.cur + s == st.cur;
    } else {
      ScanUnterminated(s[1..], st.(cur := st.cur + [s[0]]));
      assert st.cur + [s[0]] + s[1..] == st.cur + s;
    }
  }

  /** `text` with every carriage return removed. */
  function WithoutCR(s: string): string
    decreases |s|
  {
    if s == [] then []
    else if s[0] == '\r' then WithoutCR(s[1..])
    else [s[0]] + WithoutCR(s[1..])
  }

  /** Outside quotes a carriage return is dropped: with no quote character in the
      input, CRLF line ends scan exactly like LF line ends. */
  lemma {:induction false} ScanIgnoresCR(s: string, st: Scanner)
    requires !st.inQuotes
    requires forall i :: 0 <= i < |s| ==> s[i] != '"'
    ensures Scan(s, st) == Scan(WithoutCR(s), st)
    decreases |s|
  {
    if s != [] {
      var w := WithoutCR(s[1..]);
      if s[0] == '\r' {
        ScanIgnoresCR(s[1..], st);
      } else {
        assert WithoutCR(s) == [s[0]] + w;
        assert ([s[0]] + w)[0] == s[0] && ([s[0]] + w)[1..] == w;
        if s[0] == ',' {
          ScanIgnoresCR(s[1..], st.(row := st.row + [st.cur], cur := ""));
        } else if s[0] == '\n' {
          ScanIgnoresCR(s[1..], Scanner("", [], st.rows + [st.row + [st.cur]], false));
        } else {
          ScanIgnoresCR(s[1..], st.(cur := st.cur + [s[0]]));
        }
      }
    }
  }

  // ---------------------------------------------------------------------------
  // Properties of `parseCSV`

  /** A file with no line break (a header line at most), with or without a final
      newline, has no data records. */
  lemma HeaderOnlyParsesEmpty(line: string)
    requires forall i :: 0 <= i < |line| ==> line[i] != '\n'
    ensures Parsed(line) == []
    ensures Parsed(line + "\n") == []
  {
    ScanWithoutNewline(line, Start);
    var st := Scan(line, Start);
    ScanAppend(line, "\n", Start);
    assert "\n"[1..] == [];
  }

  /** A newline at the end of the input adds no record exactly when the last line,
      ended outside quotes, holds a field or a comma (`a`, `a,"b"` or `a,`); after an
      empty last line (nothing, or just `""`) it adds a line of one empty cell. */
  lemma TrailingNewlineAddsNoRecord(text: string)
    requires !Scan(text, Start).inQuotes
    ensures var st := Scan(text, Start);
      (st.cur != [] || st.row != []) <==> Rows(text + "\n") == Rows(text)
    ensures var st := Scan(text, Start);
      st.cur == [] && st.row == [] ==> Rows(text + "\n") == Rows(text) + [[""]]
    ensures var st := Scan(text, Start);
      st.cur != [] || st.row != [] ==> Parsed(text + "\n") == Parsed(text)
  {
    TrailingNewlineRows(text, Start);
  }

  /** The same, for the lines of cells, from any scanner state. */
  lemma TrailingNewlineRows(text: string, st0: Scanner)
    requires !Scan(text, st0).inQuotes
    ensures var st := Scan(text, st0);
      && (st.cur != [] || st.row != [] ==> Flush(Scan(text + "\n", st0)) == Flush(st))
      && (st.cur == [] && st.row == [] ==> Flush(Scan(text + "\n", st0)) == Flush(st) + [[""]])
  {
    var st := Scan(text, st0);
    ScanAppend(text, "\n", st0);
    assert "\n"[1..] == [];
    assert Scan("\n", st) == Scanner("", [], st.rows + [st.row + [st.cur]], false);
    if st.cur == [] && st.row == [] {
      assert st.row + [st.cur] == [""];
    }
  }

  /** A blank line anywhere outside quotes is a record whose every value is `""`: the
      `k`-th record, `k` being the number of lines finished before it. */
  lemma BlankLineGivesEmptyRecord(prefix: string, rest: string)
    requires !Scan(prefix, Start).inQuotes
    ensures var text := prefix + "\n\n" + rest; var k := |Scan(prefix, Start).rows|;
      k < |Parsed(text)| && forall h :: h in Parsed(text)[k] ==> Parsed(text)[k][h] == ""
  {
    var text := prefix + "\n\n" + rest;
    var k := |Scan(prefix, Start).rows|;
    var rows := Rows(text);
    BlankLineRow(prefix, rest, Start);
    RecordShape(rows, k);
    assert Records(rows)[k] == ToRecord(NormalizeHeaders(rows[0]), [""]);
    EmptyLineRecord(NormalizeHeaders(rows[0]));
  }

  /** The blank line is the line of one empty cell after the lines finished before it. */
  lemma BlankLineRow(prefix: string, rest: string, st0: Scanner)
    requires !Scan(prefix, st0).inQuotes
    ensures var rows := Flush(Scan(prefix + "\n\n" + rest, st0)); var k := |Scan(prefix, st0).rows|;
      k + 1 < |rows| && rows[k + 1] == [""]
  {
    var st := Scan(prefix, st0);
    var tail := "\n\n" + rest;
    assert prefix + "\n\n" + rest == prefix + tail;
    ScanAppend(prefix, tail, st0);
    assert tail[0] == '\n' && tail[1..][0] == '\n' && tail[1..][1..] == rest;
    var first := Scanner("", [], st.rows + [st.row + [st.cur]], false);
    assert Scan(tail, st) == Scan(tail[1..], first);
    var mid := Scanner("", [], first.rows + [[""]], false);
    assert first.row + [first.cur] == [""];
    assert Scan(tail[1..], first) == Scan(rest, mid);
    ScanKeepsRows(rest, mid);
    assert mid.rows[|st.rows| + 1] == [""];
  }

  /** A line of one empty cell gives every header the value `""`. */
  lemma EmptyLineRecord(hs: seq<string>)
    ensures forall h :: h in ToRecord(hs, [""]) ==> ToRecord(hs, [""])[h] == ""
  {
    var r := ToRecord(hs, [""]);
    forall h | h in r ensures r[h] == "" {
      assert CellAt([""], LastColumn(hs, h, |hs|)) == "";
    }
  }

  /** With no quote character the scan never enters quoted mode. */
  lemma {:induction false} ScanOutsideQuotes(s: string, st: Scanner)
    requires !st.inQuotes
    requires forall i :: 0 <= i < |s| ==> s[i] != '"'
    ensures !Scan(s, st).inQuotes
    decreases |s|
  {
    if s != [] {
      if s[0] == ',' {
        ScanOutsideQuotes(s[1..], st.(row := st.row + [st.cur], cur := ""));
      } else if s[0] == '\n' {
        ScanOutsideQuotes(s[1..], Scanner("", [], st.rows + [st.row + [st.cur]], false));
      } else if s[0] == '\r' {
        ScanOutsideQuotes(s[1..], st);
      } else {
        ScanOutsideQuotes(s[1..], st.(cur := st.cur + [s[0]]));
      }
    }
  }

  /** Scanning up to and through an opening quote that is never closed. */
  lemma ScanThroughOpenQuote(prefix: string, s: string, st0: Scanner)
    requires !Scan(prefix, st0).inQuotes
    requires prefix == [] || prefix[|prefix| - 1] != '"'
    requires forall i :: 0 <= i < |s| ==> s[i] != '"'
    ensures var st := Scan(prefix, st0);
      Scan(prefix + "\"" + s, st0) == st.(cur := st.cur + s, inQuotes := true)
  {
    var st := Scan(prefix, st0);
    var q := "\"" + s;
    assert prefix + "\"" + s == prefix + q;
    ScanAppend(prefix, q, st0);
    assert Scan(prefix + q, st0) == Scan(q, st);
    ScanOpenQuote(s, st);
    ScanUnterminated(s, st.(inQuotes := true));
  }

  /** Outside quotes, a `"` opens quoted mode and nothing else. */
  lemma ScanOpenQuote(s: string, st: Scanner)
    requires !st.inQuotes
    ensures Scan("\"" + s, st) == Scan(s, st.(inQuotes := true))
  {
    var q := "\"" + s;
    assert q[0] == '"' && q[1..] == s;
  }

  /** A quote that opens after `prefix` and is never closed keeps the whole rest
      `s` of the input as the last field of the last line. */
  lemma UnterminatedQuoteKeepsRest(prefix: string, s: string)
    requires !Scan(prefix, Start).inQuotes
    requires prefix == [] || prefix[|prefix| - 1] != '"'
    requires s != [] && forall i :: 0 <= i < |s| ==> s[i] != '"'
    ensures var st := Scan(prefix, Start);
      Rows(prefix + "\"" + s) == st.rows + [st.row + [st.cur + s]]
  {
    ScanThroughOpenQuote(prefix, s, Start);
  }

  /** A `\r` read outside quotes is dropped, wherever it stands, as long as removing
      it does not bring a closing and an opening quote together. */
  lemma CrOutsideQuotes(a: string, b: string, st: Scanner)
    requires !Scan(a, st).inQuotes
    requires a == [] || b == [] || a[|a| - 1] != '"' || b[0] != '"'
    ensures Scan(a + "\r" + b, st) == Scan(a + b, st)
  {
    var t := "\r" + b;
    assert a + "\r" + b == a + t;
    ScanAppend(a, t, st);
    ScanAppend(a, b, st);
    assert t[0] == '\r' && t[1..] == b;
  }

  /** A CRLF line end outside quotes reads like an LF line end, quoted fields before
      and after it included. */
  lemma CrlfLineEnd(a: string, b: string, st: Scanner)
    requires !Scan(a, st).inQuotes
    ensures Scan(a + "\r\n" + b, st) == Scan(a + "\n" + b, st)
  {
    var t := "\r\n" + b;
    var u := "\n" + b;
    assert a + "\r\n" + b == a + t;
    assert a + "\n" + b == a + u;
    ScanAppend(a, t, st);
    ScanAppend(a, u, st);
    assert t[0] == '\r' && t[1..] == u;
  }

  /** So a file whose lines end in CRLF parses like the same file with LF, one line end
      at a time, whatever quoted fields it holds. */
  lemma CrlfLineEndParses(a: string, b: string)
    requires !Scan(a, Start).inQuotes
    ensures Parsed(a + "\r\n" + b) == Parsed(a + "\n" + b)
  {
    CrlfLineEnd(a, b, Start);
  }

  /** With no quote in the input, CRLF and LF line ends give the same records. */
  lemma CrlfParsesLikeLf(text: string)
    requires forall i :: 0 <= i < |text| ==> text[i] != '"'
    ensures Parsed(text) == Parsed(WithoutCR(text))
  {
    ScanIgnoresCR(text, Start);
  }

  /** Every record (of `Parsed(text) == Records(Rows(text))`) has as keys exactly the
      normalised headers; a key takes the cell in
      the last column that carries it, `""` when the line is too short for that
      column; cells beyond the header line are dropped. */
  lemma RecordShape(rows: seq<seq<string>>, k: int)
    requires 0 <= k < |Records(rows)|
    ensures |rows| == |Records(rows)| + 1
    ensures forall h :: h in Records(rows)[k] <==> h in NormalizeHeaders(rows[0])
    ensures forall h :: h in Records(rows)[k] ==>
      Records(rows)[k][h] == CellAt(rows[k + 1], LastColumn(NormalizeHeaders(rows[0]), h, |rows[0]|))
  {
    assert rows[1..][k] == rows[k + 1];
    ToRecordShape(NormalizeHeaders(rows[0]), rows[k + 1]);
  }

  /** The keys of a line's record are the headers, each holding its last column's cell. */
  lemma ToRecordShape(hs: seq<string>, cells: seq<string>)
    ensures forall h :: h in ToRecord(hs, cells) <==> h in hs
    ensures forall h :: h in ToRecord(hs, cells) ==> ToRecord(hs, cells)[h] == CellAt(cells, LastColumn(hs, h, |hs|))
  {
    assert hs[..|hs|] == hs;
  }

  /** Whitespace around a header is dropped: the header is its lower-cased inner text
      with each whitespace run collapsed. */
  lemma NormalizeHeaderTrims(lead: string, a: string, trail: string)
    requires AllSpace(lead) && AllSpace(trail)
    requires a == [] || (!IsSpace(a[0]) && !IsSpace(a[|a| - 1]))
    ensures NormalizeHeader(lead + a + trail) == CollapseSpaces(Lower(a))
  {
    assert lead + a + trail == lead + (a + trail);
    if a == [] {
      assert AllSpace(lead + trail) && lead + trail + [] == lead + trail;
      TrimStartSpaces(lead + trail, []);
      assert a + trail == trail;
    } else {
      TrimStartSpaces(lead, a + trail);
      TrimEndSpaces(a, trail);
    }
  }

  /** Two words apart, with whitespace around: `" Review  Text "` is `review_text`. */
  lemma NormalizeHeaderTwoWords(lead: string, a: string, gap: string, b: string, trail: string)
    requires AllSpace(lead) && AllSpace(trail)
    requires a != [] && NoSpace(a) && b != [] && NoSpace(b)
    requires gap != [] && AllSpace(gap)
    ensures NormalizeHeader(lead + a + gap + b + trail) == Lower(a) + "_" + Lower(b)
  {
    var mid := a + gap + b;
    assert lead + a + gap + b + trail == lead + mid + trail;
    NormalizeHeaderTrims(lead, mid, trail);
    LowerTwoWords(a, gap, b);
  }

  /** Normalising a normalised header changes nothing. */
  lemma NormalizeHeaderIdempotent(h: string)
    ensures NormalizeHeader(NormalizeHeader(h)) == NormalizeHeader(h)
  {
  }
}

=== FILE: Export.dfy ===
/** The results export of the bulk review processor: a header line and one line per
    processed row, joined by newlines, the review always quoted with its quotes doubled.
    Read back by the processor's own CSV reader, the export gives one record per row
    holding exactly the exported fields. */
module Export {
  import opened Text
  import opened Csv
  import opened Reviews

  /** A text the reader takes literally outside quotes. */
  predicate Plain(s: string) {
    forall i :: 0 <= i < |s| ==> s[i] != '"' && s[i] != ',' && s[i] != '\n' && s[i] != '\r'
  }

  function SentimentText(s: Sentiment): (t: string)
    ensures t != [] && Plain(t)
  {
    match s
    case Positive => "positive"
    case Negative => "negative"
    case Neutral => "neutral"
  }

  // ---------------------------------------------------------------------------
  // Confidences as text

  predicate IsDigit(c: char) {
    '0' <= c <= '9'
  }

  predicate AllDigits(s: string) {
    forall i :: 0 <= i < |s| ==> IsDigit(s[i])
  }

  function DigitChar(d: nat): (c: char)
    requires d < 10
    ensures IsDigit(c) && DigitValue(c) == d
  {
    ('0' as int + d) as char
  }

  function DigitValue(c: char): nat
    requires IsDigit(c)
  {
    c as int - '0' as int
  }

  /** The decimal digits of `n`, without leading zeros. */
  function Digits(n: nat): (s: string)
    ensures s != [] && AllDigits(s)
    decreases n
  {
    if n < 10 then [DigitChar(n)] else Digits(n / 10) + [DigitChar(n % 10)]
  }

  /** The number a string of decimal digits denotes. */
  function DigitsValue(s: string): nat
    requires AllDigits(s)
    decreases |s|
  {
    if s == [] then 0 else DigitsValue(s[..|s| - 1]) * 10 + DigitValue(s[|s| - 1])
  }

  lemma {:induction false} DigitsValueOfDigits(n: nat)
    ensures DigitsValue(Digits(n)) == n
    decreases n
  {
    if n >= 10 {
      var s := Digits(n);
      assert s[..|s| - 1] == Digits(n / 10);
      DigitsValueOfDigits(n / 10);
    }
  }

  /** The fractional part of a number of hundredths `f < 100`: nothing for zero, and
      otherwise a point and one or two digits with no trailing zero. */
  function Fraction(f: nat): (t: string)
    requires f < 100
    ensures t == [] || (|t| in {2, 3} && t[0] == '.' && AllDigits(t[1..]) && t[|t| - 1] != '0')
  {
    if f == 0 then ""
    else if f % 10 == 0 then "." + [DigitChar(f / 10)]
    else "." + [DigitChar(f / 10), DigitChar(f % 10)]
  }

  /** How JavaScript writes the number `a / 100` for `a >= 0`: the integer part, then the
      fractional digits without trailing zeros (91 is `0.91`, 90 is `0.9`, 100 is `1`). */
  function Unsigned(a: nat): (t: string)
    ensures t != [] && Plain(t) && t[0] != '-'
  {
    Digits(a / 100) + Fraction(a % 100)
  }

  /** How the export writes a confidence of `c` hundredths: a minus sign when negative,
      then the magnitude as `Unsigned` writes it. */
  function ConfidenceText(c: int): (t: string)
    ensures t != [] && Plain(t)
  {
    if c < 0 then "-" + Unsigned(-c) else Unsigned(c)
  }

  /** The position of the first `.` in `t`, or `|t|` when there is none. */
  function FirstDot(t: string): (p: nat)
    ensures p <= |t| && (p < |t| ==> t[p] == '.')
    ensures forall i :: 0 <= i < p ==> t[i] != '.'
    decreases |t|
  {
    if t == [] || t[0] == '.' then 0 else 1 + FirstDot(t[1..])
  }

  /** The value in hundredths of a decimal text `ddd`, `ddd.d` or `ddd.dd`, or nothing. */
  function ReadUnsigned(t: string): Option<nat> {
    var p := FirstDot(t);
    var whole := t[..p];
    if whole == [] || !AllDigits(whole) then None
    else if p == |t| then Some(DigitsValue(whole) * 100)
    else
      var frac := t[p + 1..];
      if |frac| == 0 || |frac| > 2 || !AllDigits(frac) then None
      else if |frac| == 1 then Some(DigitsValue(whole) * 100 + DigitValue(frac[0]) * 10)
      else Some(DigitsValue(whole) * 100 + DigitsValue(frac))
  }

  /** The value in hundredths of a decimal text with an optional leading minus sign and
      at most two fractional digits, or nothing for any other text. */
  function ReadHundredths(t: string): Option<int> {
    if t != [] && t[0] == '-' then
      match ReadUnsigned(t[1..])
      case Some(v) => var n: int := v; Some(-n)
      case None => None
    else match ReadUnsigned(t)
      case Some(v) => Some(v)
      case None => None
  }

  lemma TwoDigitsValue(x: char, y: char)
    requires IsDigit(x) && IsDigit(y)
    ensures DigitsValue([x, y]) == DigitValue(x) * 10 + DigitValue(y)
  {
    assert [x, y][..1] == [x] && [x][..0] == [];
    assert DigitsValue([x]) == DigitValue(x);
    assert DigitsValue([x, y]) == DigitsValue([x]) * 10 + DigitValue(y);
  }

  /** The first `.` of digits followed by a fraction is where the fraction starts. */
  lemma FirstDotAfterDigits(d: string, f: string)
    requires AllDigits(d) && (f == [] || f[0] == '.')
    ensures FirstDot(d + f) == |d|
  {
    var t := d + f;
    assert forall i :: 0 <= i < |d| ==> t[i] == d[i];
    assert f != [] ==> t[|d|] == f[0];
  }

  /** The unsigned text reads back as the hundredths it was written from. */
  lemma ReadUnsignedText(a: nat)
    ensures ReadUnsigned(Unsigned(a)) == Some(a)
  {
    var q, f := a / 100, a % 100;
    var d := Digits(q);
    var fr := Fraction(f);
    var t := d + fr;
    assert Unsigned(a) == t;
    FirstDotAfterDigits(d, fr);
    assert t[..|d|] == d;
    DigitsValueOfDigits(q);
    if fr != [] {
      assert t[|d| + 1..] == fr[1..];
      if f % 10 != 0 {
        TwoDigitsValue(DigitChar(f / 10), DigitChar(f % 10));
        assert fr[1..] == [DigitChar(f / 10), DigitChar(f % 10)];
      }
    }
  }

  /** The confidence text reads back as the confidence it was written from. */
  lemma ConfidenceTextReadsBack(c: int)
    ensures ReadHundredths(ConfidenceText(c)) == Some(c)
  {
    var t := ConfidenceText(c);
    if c < 0 {
      assert t == "-" + Unsigned(-c);
      ReadUnsignedText(-c);
      ReadMinus(Unsigned(-c), -c);
    } else {
      assert t == Unsigned(c);
      ReadUnsignedText(c);
      ReadNoSign(Unsigned(c), c);
    }
  }

  /** A leading minus sign negates what follows it. */
  lemma ReadMinus(body: string, v: nat)
    requires ReadUnsigned(body) == Some(v)
    ensures ReadHundredths("-" + body) == Some(-(v as int))
  {
    var t := "-" + body;
    assert t[0] == '-' && t[1..] == body;
  }

  /** Text that does not start with a minus sign reads without one. */
  lemma ReadNoSign(body: string, v: nat)
    requires ReadUnsigned(body) == Some(v) && body != [] && body[0] != '-'
    ensures ReadHundredths(body) == Some(v)
  {
  }

  // ---------------------------------------------------------------------------
  // The export text

  const Headers: seq<string> := ["reviews", "sentiment", "confidence_score", "corrected_sentiment"]

  /** `"${text.replace(/"/g, '""')}"`. */
  function Quote(s: string): string {
    "\"" + DoubleQuotes(s) + "\""
  }

  /** The four cells of a row as written: the quoted review, the prediction, the
      confidence and `correctedSentiment || sentiment`. */
  function LineCells(r: ReviewRow): seq<string> {
    [Quote(r.reviews), SentimentText(r.sentiment), ConfidenceText(r.confidence), SentimentText(FinalSentiment(r))]
  }

  /** One line per row. */
  function Lines(rows: seq<ReviewRow>): (ls: seq<string>)
    ensures |ls| == |rows| && forall i :: 0 <= i < |rows| ==> ls[i] == Join(LineCells(rows[i]), ',')
  {
    seq(|rows|, i requires 0 <= i < |rows| => Join(LineCells(rows[i]), ','))
  }

  /** The exported file: the header line, then one line per row, newline-separated,
      with no newline after the last line. */
  function ExportText(rows: seq<ReviewRow>): string {
    Join([Join(Headers, ',')] + Lines(rows), '\n')
  }

  /** The record a row should read back as. */
  function ExportedRecord(r: ReviewRow): Record {
    map[
      "reviews" := r.reviews,
      "sentiment" := SentimentText(r.sentiment),
      "confidence_score" := ConfidenceText(r.confidence),
      "corrected_sentiment" := SentimentText(FinalSentiment(r))]
  }

  // ---------------------------------------------------------------------------
  // Reading the export back

  /** The cells of a row as the reader gives them back. */
  function ReadCells(r: ReviewRow): seq<string> {
    [r.reviews, SentimentText(r.sentiment), ConfidenceText(r.confidence), SentimentText(FinalSentiment(r))]
  }

  function ReadLines(rows: seq<ReviewRow>): (cs: seq<seq<string>>)
    ensures |cs| == |rows| && forall i :: 0 <= i < |rows| ==> cs[i] == ReadCells(rows[i])
  {
    seq(|rows|, i requires 0 <= i < |rows| => ReadCells(rows[i]))
  }

  /** Cells that can be written with only the first one quoted. */
  predicate Writable(c: seq<string>) {
    |c| >= 2 && forall i :: 1 <= i < |c| ==> Plain(c[i])
  }

  /** A line of cells, the first one quoted and the others written as they are. */
  function QuotedFirst(c: seq<string>): string {
    if c == [] then "" else Join([Quote(c[0])] + c[1..], ',')
  }

  function QuotedFirstLines(cs: seq<seq<string>>): (ls: seq<string>)
    ensures |ls| == |cs|
  {
    if cs == [] then [] else [QuotedFirst(cs[0])] + QuotedFirstLines(cs[1..])
  }

  /** Outside quotes a plain text is taken into the field as it is. */
  lemma {:induction false} ScanPlain(p: string, st: Scanner)
    requires !st.inQuotes && Plain(p)
    ensures Scan(p, st) == st.(cur := st.cur + p)
    decreases |p|
  {
    if p == [] {
      assert st.cur + p == st.cur;
    } else {
      ScanPlain(p[1..], st.(cur := st.cur + [p[0]]));
      assert st.cur + [p[0]] + p[1..] == st.cur + p;
    }
  }

  /** A plain field followed by a comma closes the field. */
  lemma ScanField(p: string, rest: string, st: Scanner)
    requires !st.inQuotes && Plain(p)
    ensures Scan(p + [','] + rest, st) == Scan(rest, st.(row := st.row + [st.cur + p], cur := ""))
  {
    var tail := [','] + rest;
    assert p + [','] + rest == p + tail;
    ScanAppend(p, tail, st);
    ScanPlain(p, st);
    assert tail[0] == ',' && tail[1..] == rest;
  }

  /** A plain last field is taken in, and the rest is read from there. */
  lemma ScanLastField(p: string, rest: string, st: Scanner)
    requires !st.inQuotes && Plain(p)
    ensures Scan(p + rest, st) == Scan(rest, st.(cur := st.cur + p))
  {
    ScanAppend(p, rest, st);
    ScanPlain(p, st);
  }

  /** Plain cells joined by commas, read from the start of a field, give those cells,
      the last one still open. */
  lemma {:induction false} ScanPlainCells(cells: seq<string>, rest: string, st: Scanner)
    requires cells != [] && st.cur == "" && !st.inQuotes
    requires forall i :: 0 <= i < |cells| ==> Plain(cells[i])
    ensures Scan(Join(cells, ',') + rest, st)
         == Scan(rest, st.(row := st.row + cells[..|cells| - 1], cur := cells[|cells| - 1]))
    decreases |cells|
  {
    var n := |cells|;
    if n == 1 {
      ScanLastField(cells[0], rest, st);
      assert "" + cells[0] == cells[0];
      assert st.row + cells[..0] == st.row;
    } else {
      var tail := Join(cells[1..], ',') + rest;
      assert Join(cells, ',') + rest == cells[0] + [','] + tail;
      ScanField(cells[0], tail, st);
      var st1 := st.(row := st.row + [cells[0]], cur := "");
      assert st.cur + cells[0] == cells[0];
      ScanPlainCells(cells[1..], rest, st1);
      assert st.row + [cells[0]] + cells[1..][..n - 2] == st.row + cells[..n - 1];
    }
  }

  /** Outside quotes, a quoted cell reads as the text it quotes. */
  lemma ScanQuotedCell(s: string, st: Scanner)
    requires !st.inQuotes
    ensures Scan(Quote(s), st) == st.(cur := st.cur + s)
  {
    var body := DoubleQuotes(s) + "\"" + [];
    assert Quote(s) == "\"" + body;
    ScanOpenQuote(body, st);
    ScanQuoted(s, [], st.(inQuotes := true));
  }

  /** Outside quotes a newline closes the field and the line. */
  lemma ScanNewline(rest: string, st: Scanner)
    requires !st.inQuotes
    ensures Scan("\n" + rest, st) == Scan(rest, Scanner("", [], st.rows + [st.row + [st.cur]], false))
  {
    var t := "\n" + rest;
    assert t[0] == '\n' && t[1..] == rest;
  }

  /** A quoted cell and a comma, read from the start of a line, close the first field. */
  lemma ScanQuotedThenComma(s: string, y: string, acc: seq<seq<string>>)
    ensures Scan(Quote(s) + ([','] + y), Scanner("", [], acc, false)) == Scan(y, Scanner("", [s], acc, false))
  {
    var st0 := Scanner("", [], acc, false);
    var st1 := Scanner(s, [], acc, false);
    var tail := [','] + y;
    ScanAppend(Quote(s), tail, st0);
    ScanQuotedCell(s, st0);
    assert "" + s == s;
    assert Scan(Quote(s), st0) == st1;
    assert tail[0] == ',' && tail[1..] == y;
    assert Scan(tail, st1) == Scan(y, st1.(row := st1.row + [st1.cur], cur := ""));
    assert st1.row + [st1.cur] == [s];
  }

  /** A sequence is its front followed by its last element. */
  lemma InitLast<T>(s: seq<T>)
    requires s != []
    ensures s[..|s| - 1] + [s[|s| - 1]] == s
  {
  }

  /** A line with its first cell quoted, read from the start of a line, gives its
      cells, the last one still open. */
  lemma ScanQuotedFirst(c: seq<string>, rest: string, acc: seq<seq<string>>)
    requires Writable(c)
    requires rest == [] || rest[0] != '"'
    ensures Scan(QuotedFirst(c) + rest, Scanner("", [], acc, false))
         == Scan(rest, Scanner(c[|c| - 1], c[..|c| - 1], acc, false))
  {
    var plain := c[1..];
    var y := Join(plain, ',') + rest;
    var st2 := Scanner("", [c[0]], acc, false);
    assert QuotedFirst(c) + rest == Quote(c[0]) + ([','] + y) by {
      var parts := [Quote(c[0])] + plain;
      assert parts[0] == Quote(c[0]) && parts[1..] == plain;
    }
    assert Scan(QuotedFirst(c) + rest, Scanner("", [], acc, false)) == Scan(y, st2) by {
      ScanQuotedThenComma(c[0], y, acc);
    }
    assert Scan(y, st2) == Scan(rest, Scanner(c[|c| - 1], c[..|c| - 1], acc, false)) by {
      ScanPlainCells(plain, rest, st2);
      assert [c[0]] + plain[..|plain| - 1] == c[..|c| - 1];
    }
  }

  /** The last line reads as its cells. */
  lemma ScanLastQuotedFirst(c: seq<string>, acc: seq<seq<string>>)
    requires Writable(c)
    ensures Flush(Scan(QuotedFirst(c), Scanner("", [], acc, false))) == acc + [c]
  {
    var next := Scanner(c[|c| - 1], c[..|c| - 1], acc, false);
    assert QuotedFirst(c) + [] == QuotedFirst(c);
    ScanQuotedFirst(c, [], acc);
    assert Scan(QuotedFirst(c), Scanner("", [], acc, false)) == next;
    InitLast(c);
  }

  /** Lines after a newline, each with its first cell quoted, read as their cells. */
  lemma {:induction false} ScanQuotedFirstLines(cs: seq<seq<string>>, st: Scanner)
    requires cs != [] && !st.inQuotes
    requires forall i :: 0 <= i < |cs| ==> Writable(cs[i])
    ensures Flush(Scan("\n" + Join(QuotedFirstLines(cs), '\n'), st)) == st.rows + [st.row + [st.cur]] + cs
    decreases |cs|
  {
    var acc := st.rows + [st.row + [st.cur]];
    var ls := QuotedFirstLines(cs);
    var j := Join(ls, '\n');
    var st0 := Scanner("", [], acc, false);
    ScanNewline(j, st);
    var c := cs[0];
    if |cs| == 1 {
      assert ls == [QuotedFirst(c)];
      ScanLastQuotedFirst(c, acc);
      assert acc + [c] == acc + cs;
    } else {
      var next := Scanner(c[|c| - 1], c[..|c| - 1], acc, false);
      var rest := "\n" + Join(QuotedFirstLines(cs[1..]), '\n');
      assert j == QuotedFirst(c) + rest by {
        assert ls[0] == QuotedFirst(c) && ls[1..] == QuotedFirstLines(cs[1..]);
      }
      assert Scan(j, st0) == Scan(rest, next) by {
        ScanQuotedFirst(c, rest, acc);
      }
      assert Flush(Scan(rest, next)) == acc + cs by {
        ScanQuotedFirstLines(cs[1..], next);
        InitLast(c);
        assert acc + [c] + cs[1..] == acc + cs;
      }
    }
  }

  /** A text of lower-case letters and underscores. */
  predicate Word(s: string) {
    forall i :: 0 <= i < |s| ==> ('a' <= s[i] <= 'z') || s[i] == '_'
  }

  lemma HeadersAreWords()
    ensures forall j :: 0 <= j < |Headers| ==> Word(Headers[j])
  {
  }

  /** The header line reads as the four headers. */
  lemma ScanHeaderLine(rest: string)
    ensures Scan(Join(Headers, ',') + rest, Start) == Scan(rest, Scanner(Headers[3], Headers[..3], [], false))
  {
    HeadersAreWords();
    assert forall j :: 0 <= j < |Headers| ==> Plain(Headers[j]);
    ScanPlainCells(Headers, rest, Start);
    assert [] + Headers[..3] == Headers[..3];
  }

  /** A row's line is its read-back cells, written with the first one quoted. */
  lemma LineQuotesFirstCell(r: ReviewRow)
    ensures Writable(ReadCells(r))
    ensures Join(LineCells(r), ',') == QuotedFirst(ReadCells(r))
  {
    var c := ReadCells(r);
    assert LineCells(r) == [Quote(c[0])] + c[1..];
  }

  /** The row lines are the rows' read-back cells, each written with its first cell quoted. */
  lemma {:induction false} LinesQuoteFirstCell(rows: seq<ReviewRow>)
    ensures forall i :: 0 <= i < |rows| ==> Writable(ReadLines(rows)[i])
    ensures Lines(rows) == QuotedFirstLines(ReadLines(rows))
    decreases |rows|
  {
    if rows != [] {
      LineQuotesFirstCell(rows[0]);
      LinesQuoteFirstCell(rows[1..]);
      assert ReadLines(rows)[1..] == ReadLines(rows[1..]);
      assert Lines(rows)[1..] == Lines(rows[1..]);
      forall i | 0 <= i < |rows| ensures Writable(ReadLines(rows)[i]) {
        LineQuotesFirstCell(rows[i]);
      }
    }
  }

  /** The export reads back as its header line followed by the rows' cells. */
  lemma ExportRows(rows: seq<ReviewRow>)
    ensures Rows(ExportText(rows)) == [Headers] + ReadLines(rows)
  {
    var h := Join(Headers, ',');
    var hst := Scanner(Headers[3], Headers[..3], [], false);
    assert hst.row + [hst.cur] == Headers;
    if rows == [] {
      assert ExportText(rows) == h + [];
      ScanHeaderLine([]);
    } else {
      var j := Join(Lines(rows), '\n');
      assert ([h] + Lines(rows))[1..] == Lines(rows);
      assert ExportText(rows) == h + ("\n" + j);
      ScanHeaderLine("\n" + j);
      LinesQuoteFirstCell(rows);
      ScanQuotedFirstLines(ReadLines(rows), hst);
    }
  }

  /** Normalising a header of lower-case letters and underscores changes nothing. */
  lemma WordIsNormal(h: string)
    requires Word(h)
    ensures NormalizeHeader(h) == h
  {
    assert NoSpace(h) && NoUpper(h);
  }

  lemma HeadersNormal()
    ensures NormalizeHeaders(Headers) == Headers
  {
    HeadersAreWords();
    forall j | 0 <= j < |Headers| ensures NormalizeHeader(Headers[j]) == Headers[j] {
      WordIsNormal(Headers[j]);
    }
  }

  /** Four cells under the export's headers give the record of header `j` to cell `j`. */
  lemma HeaderRecord(c: seq<string>)
    requires |c| == 4
    ensures ToRecord(Headers, c) == map[Headers[0] := c[0], Headers[1] := c[1], Headers[2] := c[2], Headers[3] := c[3]]
  {
    var o := ToRecord(Headers, c);
    var m := map[Headers[0] := c[0], Headers[1] := c[1], Headers[2] := c[2], Headers[3] := c[3]];
    assert Headers[..|Headers|] == Headers;
    forall h ensures h in o <==> h in m {
      assert h in Headers <==> h == Headers[0] || h == Headers[1] || h == Headers[2] || h == Headers[3];
    }
    forall j | 0 <= j < 4 ensures LastColumn(Headers, Headers[j], 4) == j {
      var k := LastColumn(Headers, Headers[j], 4);
      assert k >= 0;
      assert |Headers[k]| == |Headers[j]|;
    }
    assert o == m;
  }

  /** Lines under a header line that normalisation leaves alone read as one record per
      line under those headers. */
  lemma RecordsUnderHeaders(hs: seq<string>, cs: seq<seq<string>>)
    requires NormalizeHeaders(hs) == hs
    ensures |Records([hs] + cs)| == |cs|
    ensures forall i :: 0 <= i < |cs| ==> Records([hs] + cs)[i] == ToRecord(hs, cs[i])
  {
    var all := [hs] + cs;
    assert all[0] == hs;
    assert forall k :: 0 <= k < |cs| ==> all[k + 1] == cs[k];
  }

  /** The export reads back as one record per row, built from the row's cells under
      the export's headers. */
  lemma ExportRecords(rows: seq<ReviewRow>)
    ensures |Parsed(ExportText(rows))| == |rows|
    ensures forall i :: 0 <= i < |rows| ==> Parsed(ExportText(rows))[i] == ToRecord(Headers, ReadCells(rows[i]))
  {
    ExportRows(rows);
    HeadersNormal();
    RecordsUnderHeaders(Headers, ReadLines(rows));
  }

  /** Reading the export back with the processor's own CSV reader gives one record per
      exported row, holding exactly the row's review (whatever quotes, commas and
      newlines it contains), its prediction, its confidence and its final label. */
  lemma ExportRoundTrip(rows: seq<ReviewRow>)
    ensures |Parsed(ExportText(rows))| == |rows|
    ensures forall i :: 0 <= i < |rows| ==> Parsed(ExportText(rows))[i] == ExportedRecord(rows[i])
  {
    ExportRecords(rows);
    forall i | 0 <= i < |rows| ensures ToRecord(Headers, ReadCells(rows[i])) == ExportedRecord(rows[i]) {
      HeaderRecord(ReadCells(rows[i]));
    }
  }
}

=== FILE: Processor.dfy ===
/** The bulk review processor's component state and the handlers that replace it.
    Each handler is one step: the batch prediction call and the save-correction call
    are given to it as their outcome. */
module Processor {
  import opened Reviews
  import Csv

  /** The processor's status. `Processing` lasts only while the batch call is out. */
  datatype Status = Idle | Uploaded | Processing | Done

  /** `String(r.reviews ?? "")` for every parsed record: the review column, or the empty
      text for a record without one. */
  function UploadedReviews(records: seq<Csv.Record>): (reviews: seq<string>)
    ensures |reviews| == |records|
    ensures forall i :: 0 <= i < |records| && "reviews" in records[i] ==> reviews[i] == records[i]["reviews"]
    ensures forall i :: 0 <= i < |records| && "reviews" !in records[i] ==> reviews[i] == ""
  {
    seq(|records|, i requires 0 <= i < |records| =>
      if "reviews" in records[i] then records[i]["reviews"] else "")
  }

  class BulkReviewProcessor {
    /** The review text of each uploaded row; the uploaded sentiment and confidence
        columns are replaced by the predictions before anything reads them. */
    var rawRows: seq<string>
    var processedRows: seq<ReviewRow>
    var status: Status
    var showOnlyLowConfidence: bool
    /** The slider's threshold in hundredths: 50 to 90 in steps of 5. */
    var confidenceThreshold: int

    /** Between handlers: no row is both changed and saved; the processed rows, when
        there are any, line up with the uploaded reviews; an idle processor holds no
        rows; the status is never left at `Processing`; the threshold is a slider
        position. */
    ghost predicate Valid()
      reads this
    {
      && AllFlagged(processedRows)
      && (processedRows != [] ==> |processedRows| == |rawRows|)
      && (forall i :: 0 <= i < |processedRows| && i < |rawRows| ==> processedRows[i].reviews == rawRows[i])
      && (status == Idle ==> rawRows == [] && processedRows == [])
      && (status == Done ==> |processedRows| == |rawRows|)
      && status != Processing
      && 50 <= confidenceThreshold <= 90 && confidenceThreshold % 5 == 0
    }

    /** The positions of `filteredRows` in `processedRows`. */
    function View(): seq<nat>
      reads this
    {
      FilteredIndices(processedRows, showOnlyLowConfidence, confidenceThreshold)
    }

    constructor()
      ensures Valid()
      ensures rawRows == [] && processedRows == [] && status == Idle
      ensures !showOnlyLowConfidence && confidenceThreshold == 70
    {
      rawRows := [];
      processedRows := [];
      status := Idle;
      showOnlyLowConfidence := false;
      confidenceThreshold := 70;
    }

    /** `parseFile` on the text of the chosen file: clears the results, then keeps the
        parsed reviews and becomes `Uploaded`, or, for a file without records, keeps
        none and stays `Idle`. */
    method ParseFile(text: string)
      requires Valid()
      modifies this
      ensures Valid()
      ensures rawRows == UploadedReviews(Csv.Parsed(text)) && processedRows == []
      ensures status == if Csv.Parsed(text) == [] then Idle else Uploaded
      ensures showOnlyLowConfidence == old(showOnlyLowConfidence)
      ensures confidenceThreshold == old(confidenceThreshold)
    {
      status := Idle;
      processedRows := [];
      var records := Csv.ParseCsv(text);
      if records == [] {
        rawRows := [];
      } else {
        rawRows := UploadedReviews(records);
        status := Uploaded;
      }
    }

    /** `processData`: sends the uploaded reviews (the returned `sent`) to the batch
        prediction service, whose answer is `response` (`None` when the call fails).
        On an answer that covers every review the rows are replaced and the status is
        `Done`; otherwise the previous rows stay and the status is `Uploaded`. */
    method ProcessData(response: Option<seq<Prediction>>) returns (sent: seq<string>)
      requires Valid()
      modifies this
      ensures Valid()
      ensures sent == rawRows == old(rawRows)
      ensures response.Some? && Ingest(rawRows, response.value).Some? ==>
        processedRows == Ingest(rawRows, response.value).value && status == Done
      ensures response.None? || Ingest(rawRows, response.value).None? ==>
        processedRows == old(processedRows) && status == Uploaded
      ensures showOnlyLowConfidence == old(showOnlyLowConfidence)
      ensures confidenceThreshold == old(confidenceThreshold)
    {
      status := Processing;
      sent := rawRows;
      var out := if response.Some? then Ingest(rawRows, response.value) else None;
      if out.Some? {
        processedRows := out.value;
        status := Done;
      } else {
        status := Uploaded;
      }
    }

    /** The low-confidence switch. */
    method SetShowOnlyLowConfidence(on: bool)
      requires Valid()
      modifies this
      ensures Valid()
      ensures showOnlyLowConfidence == on
      ensures View() == FilteredIndices(processedRows, on, confidenceThreshold)
      ensures rawRows == old(rawRows) && processedRows == old(processedRows) && status == old(status)
      ensures confidenceThreshold == old(confidenceThreshold)
    {
      showOnlyLowConfidence := on;
    }

    /** The threshold slider: 0.5 to 0.9 in steps of 0.05. */
    method SetConfidenceThreshold(t: int)
      requires Valid()
      requires 50 <= t <= 90 && t % 5 == 0
      modifies this
      ensures Valid()
      ensures confidenceThreshold == t
      ensures View() == FilteredIndices(processedRows, showOnlyLowConfidence, t)
      ensures rawRows == old(rawRows) && processedRows == old(processedRows) && status == old(status)
      ensures showOnlyLowConfidence == old(showOnlyLowConfidence)
    {
      confidenceThreshold := t;
    }

    /** `handleCorrectionChange`: the row at `index` in the table gets the label `s`;
        every other row, the view and the rest of the state stay as they were. An index
        outside the table changes nothing. */
    method HandleCorrectionChange(index: int, s: Sentiment)
      requires Valid()
      modifies this
      ensures Valid()
      ensures var k := Resolve(old(processedRows), old(View()), index);
        processedRows == if k.Some? then Correct(old(processedRows), k.value, s) else old(processedRows)
      ensures View() == old(View())
      ensures rawRows == old(rawRows) && status == old(status)
      ensures showOnlyLowConfidence == old(showOnlyLowConfidence)
      ensures confidenceThreshold == old(confidenceThreshold)
    {
      var k := Resolve(processedRows, View(), index);
      if k.Some? {
        CorrectKeepsView(processedRows, k.value, s, showOnlyLowConfidence, confidenceThreshold);
        processedRows := Correct(processedRows, k.value, s);
      }
    }

    /** `handleSaveCorrection`: for the row at `index` in the table, sends its review,
        its prediction and its chosen label (the returned request) to the save service,
        whose outcome is `saveSucceeded`. Only on success is that row marked saved. An
        index outside the table sends nothing and changes nothing. */
    method HandleSaveCorrection(index: int, saveSucceeded: bool) returns (request: Option<SaveRequest>)
      requires Valid()
      modifies this
      ensures Valid()
      ensures var k := Resolve(old(processedRows), old(View()), index);
        && request == (if k.Some? then Some(SaveRequestFor(old(processedRows)[k.value])) else None)
        && processedRows == if k.Some? && saveSucceeded then MarkSaved(old(processedRows), k.value) else old(processedRows)
      ensures View() == old(View())
      ensures rawRows == old(rawRows) && status == old(status)
      ensures showOnlyLowConfidence == old(showOnlyLowConfidence)
      ensures confidenceThreshold == old(confidenceThreshold)
    {
      var k := Resolve(processedRows, View(), index);
      if k.None? {
        return None;
      }
      request := Some(SaveRequestFor(processedRows[k.value]));
      if saveSucceeded {
        MarkSavedKeepsView(processedRows, k.value, showOnlyLowConfidence, confidenceThreshold);
        processedRows := MarkSaved(processedRows, k.value);
      }
    }
  }
}

=== FILE: Reviews.dfy ===
/** The rows of the bulk review processor's results table and the pure steps that
    rebuild them: ingesting a batch of predictions, the low-confidence view, a
    correction, a saved correction, and the summary counts. Confidences are whole
    hundredths (a score of 0.91 is 91), the precision the processor rounds them to. */
module Reviews {
  import opened Selection

  datatype Option<T> = None | Some(value: T)

  datatype Sentiment = Positive | Negative | Neutral

  /** One row of the results table. */
  datatype ReviewRow = ReviewRow(
    reviews: string,
    sentiment: Sentiment,
    confidence: int,
    correctedSentiment: Option<Sentiment>,
    hasChanged: bool,
    isSaved: bool)

  /** One entry of the batch prediction response, its confidence in hundredths. */
  datatype Prediction = Prediction(sentiment: Sentiment, confidence: int)

  /** What a save-correction request carries. */
  datatype SaveRequest = SaveRequest(review: string, originalSentiment: Sentiment, correctedSentiment: Sentiment)

  /** The summary shown above the table. */
  datatype Stats = Stats(positive: nat, negative: nat, neutral: nat, lowConfidence: nat, total: nat)

  /** The fixed cutoff of the low-confidence count in the summary (0.7), which does not
      follow the slider. */
  const LowConfidenceCutoff: int := 70

  /** `row.correctedSentiment || row.sentiment`: the label the row ends up with. */
  function FinalSentiment(r: ReviewRow): Sentiment {
    if r.correctedSentiment.Some? then r.correctedSentiment.value else r.sentiment
  }

  /** A row is never both awaiting a save and saved, and it awaits a save only while its
      chosen label differs from the prediction. */
  predicate Flagged(r: ReviewRow) {
    && !(r.hasChanged && r.isSaved)
    && (r.hasChanged ==> FinalSentiment(r) != r.sentiment)
  }

  predicate AllFlagged(rows: seq<ReviewRow>) {
    forall i :: 0 <= i < |rows| ==> Flagged(rows[i])
  }

  /** The row built for one review from its prediction. */
  function Predicted(review: string, p: Prediction): ReviewRow {
    ReviewRow(review, p.sentiment, p.confidence, Some(p.sentiment), false, false)
  }

  /** `processData`'s mapping of the uploaded reviews against the prediction list, by
      position. A list shorter than the uploads fails (the lookup of a missing entry
      throws); a longer one has its tail ignored. */
  function Ingest(reviews: seq<string>, ps: seq<Prediction>): (out: Option<seq<ReviewRow>>)
    ensures out.None? <==> |ps| < |reviews|
    ensures out.Some? ==> |out.value| == |reviews| && AllFlagged(out.value)
    ensures out.Some? ==> forall i :: 0 <= i < |reviews| ==>
      && out.value[i].reviews == reviews[i]
      && out.value[i].sentiment == ps[i].sentiment
      && out.value[i].confidence == ps[i].confidence
      && out.value[i].correctedSentiment == Some(ps[i].sentiment)
      && FinalSentiment(out.value[i]) == ps[i].sentiment
      && !out.value[i].hasChanged && !out.value[i].isSaved
  {
    if |ps| < |reviews| then None
    else Some(seq(|reviews|, i requires 0 <= i < |reviews| => Predicted(reviews[i], ps[i])))
  }

  /** Predictions beyond the number of uploaded reviews make no difference. */
  lemma IngestIgnoresExtraPredictions(reviews: seq<string>, ps: seq<Prediction>, extra: seq<Prediction>)
    requires |reviews| <= |ps|
    ensures Ingest(reviews, ps + extra) == Ingest(reviews, ps)
  {
    var a := Ingest(reviews, ps + extra).value;
    var b := Ingest(reviews, ps).value;
    assert forall i :: 0 <= i < |reviews| ==> (ps + extra)[i] == ps[i];
    assert forall i :: 0 <= i < |reviews| ==> a[i] == b[i];
    assert a == b;
  }

  /** Whether a row passes the low-confidence filter at `threshold`. */
  function Below(threshold: int): ReviewRow -> bool {
    (r: ReviewRow) => r.confidence < threshold
  }

  /** `filteredRows`, as the positions in `rows` of the rows it shows: none when nothing
      is processed, every row when the filter is off, and otherwise the rows whose
      confidence is under the threshold. The positions are strictly increasing, so the
      view is a subsequence of `rows` in their order. */
  function FilteredIndices(rows: seq<ReviewRow>, lowOnly: bool, threshold: int): (view: seq<nat>)
    ensures Increasing(view) && InRange(view, rows)
    ensures forall i :: 0 <= i < |rows| ==> (i in view <==> (!lowOnly || rows[i].confidence < threshold))
    ensures !lowOnly ==> view == AllIndices(|rows|)
  {
    if rows == [] then []
    else if !lowOnly then AllIndices(|rows|)
    else KeptIndices(rows, Below(threshold))
  }

  /** The rows the table shows. */
  function FilteredRows(rows: seq<ReviewRow>, lowOnly: bool, threshold: int): (shown: seq<ReviewRow>)
    ensures forall r :: r in shown ==> r in rows
    ensures !lowOnly ==> shown == rows
    ensures lowOnly ==> shown == Filter(rows, Below(threshold))
  {
    Pick(rows, FilteredIndices(rows, lowOnly, threshold))
  }

  /** `processedRows.findIndex(r => r === filteredRows[index])`: the position in `rows` of
      the row at `index` in the view, or nothing when `index` is outside the view. */
  function Resolve(rows: seq<ReviewRow>, view: seq<nat>, index: int): (k: Option<nat>)
    requires InRange(view, rows)
    ensures k.None? <==> !(0 <= index < |view|)
    ensures k.Some? ==> k.value == view[index]
    ensures k.Some? ==> k.value < |rows| && rows[k.value] == Pick(rows, view)[index]
  {
    if 0 <= index < |view| then Some(view[index]) else None
  }

  /** `handleCorrectionChange`'s rewrite of row `k` to the label `s`. */
  function Correct(rows: seq<ReviewRow>, k: nat, s: Sentiment): (out: seq<ReviewRow>)
    requires k < |rows|
    ensures |out| == |rows|
    ensures forall i :: 0 <= i < |rows| && i != k ==> out[i] == rows[i]
    ensures out[k].reviews == rows[k].reviews && out[k].sentiment == rows[k].sentiment
    ensures out[k].confidence == rows[k].confidence
    ensures out[k].correctedSentiment == Some(s) && FinalSentiment(out[k]) == s
    ensures out[k].hasChanged <==> s != rows[k].sentiment
    ensures !out[k].isSaved
    ensures AllFlagged(rows) ==> AllFlagged(out)
  {
    rows[k := rows[k].(correctedSentiment := Some(s), hasChanged := s != rows[k].sentiment, isSaved := false)]
  }

  /** The request `handleSaveCorrection` sends for a row. */
  function SaveRequestFor(r: ReviewRow): (req: SaveRequest)
    ensures req.review == r.reviews && req.originalSentiment == r.sentiment
    ensures req.correctedSentiment == FinalSentiment(r)
    ensures Flagged(r) && r.hasChanged ==> req.correctedSentiment != req.originalSentiment
  {
    SaveRequest(r.reviews, r.sentiment, FinalSentiment(r))
  }

  /** `handleSaveCorrection`'s update of row `k` once the save succeeded. */
  function MarkSaved(rows: seq<ReviewRow>, k: nat): (out: seq<ReviewRow>)
    requires k < |rows|
    ensures |out| == |rows|
    ensures forall i :: 0 <= i < |rows| && i != k ==> out[i] == rows[i]
    ensures out[k].reviews == rows[k].reviews && out[k].sentiment == rows[k].sentiment
    ensures out[k].confidence == rows[k].confidence
    ensures out[k].correctedSentiment == rows[k].correctedSentiment
    ensures !out[k].hasChanged && out[k].isSaved
    ensures AllFlagged(rows) ==> AllFlagged(out)
  {
    rows[k := rows[k].(hasChanged := false, isSaved := true)]
  }

  /** Two lists whose confidences agree position by position show the same view. */
  lemma {:induction false} SameConfidencesSameView(rows: seq<ReviewRow>, other: seq<ReviewRow>, lowOnly: bool, threshold: int)
    requires |rows| == |other|
    requires forall i :: 0 <= i < |rows| ==> rows[i].confidence == other[i].confidence
    ensures FilteredIndices(rows, lowOnly, threshold) == FilteredIndices(other, lowOnly, threshold)
  {
    if rows != [] && lowOnly {
      KeptIndicesAgree(rows, Below(threshold), other, Below(threshold));
    }
  }

  /** A correction leaves the view as it was: every index the table shows still names
      the same position, the corrected row included. */
  lemma CorrectKeepsView(rows: seq<ReviewRow>, k: nat, s: Sentiment, lowOnly: bool, threshold: int)
    requires k < |rows|
    ensures FilteredIndices(Correct(rows, k, s), lowOnly, threshold) == FilteredIndices(rows, lowOnly, threshold)
  {
    SameConfidencesSameView(Correct(rows, k, s), rows, lowOnly, threshold);
  }

  /** So does marking a row saved. */
  lemma MarkSavedKeepsView(rows: seq<ReviewRow>, k: nat, lowOnly: bool, threshold: int)
    requires k < |rows|
    ensures FilteredIndices(MarkSaved(rows, k), lowOnly, threshold) == FilteredIndices(rows, lowOnly, threshold)
  {
    SameConfidencesSameView(MarkSaved(rows, k), rows, lowOnly, threshold);
  }

  /** Choosing the predicted label again withdraws a pending change, and saving after a
      correction keeps the chosen label. */
  lemma CorrectThenSave(rows: seq<ReviewRow>, k: nat, s: Sentiment)
    requires k < |rows|
    ensures !Correct(rows, k, rows[k].sentiment)[k].hasChanged
    ensures FinalSentiment(MarkSaved(Correct(rows, k, s), k)[k]) == s
    ensures SaveRequestFor(Correct(rows, k, s)[k]) == SaveRequest(rows[k].reviews, rows[k].sentiment, s)
  {
  }

  function HasSentiment(s: Sentiment): ReviewRow -> bool {
    (r: ReviewRow) => r.sentiment == s
  }

  /** The summary counts, or nothing when no row is processed. */
  function Summary(rows: seq<ReviewRow>): (st: Option<Stats>)
    ensures st.None? <==> rows == []
    ensures st.Some? ==> st.value.total == |rows|
    ensures st.Some? ==> st.value.positive == |Filter(rows, HasSentiment(Positive))|
    ensures st.Some? ==> st.value.negative == |Filter(rows, HasSentiment(Negative))|
    ensures st.Some? ==> st.value.neutral == |Filter(rows, HasSentiment(Neutral))|
    ensures st.Some? ==> st.value.positive + st.value.negative + st.value.neutral == st.value.total
    ensures st.Some? ==> st.value.lowConfidence == |FilteredRows(rows, true, LowConfidenceCutoff)|
  {
    if rows == [] then None
    else
      var st := Stats(
        |Filter(rows, HasSentiment(Positive))|,
        |Filter(rows, HasSentiment(Negative))|,
        |Filter(rows, HasSentiment(Neutral))|,
        |Filter(rows, Below(LowConfidenceCutoff))|,
        |rows|);
      SentimentCountsAddUp(rows);
      Some(st)
  }

  /** Each row has exactly one of the three labels, so the three counts add up to the
      number of rows. */
  lemma {:induction false} SentimentCountsAddUp(rows: seq<ReviewRow>)
    ensures |KeptIndices(rows, HasSentiment(Positive))| + |KeptIndices(rows, HasSentiment(Negative))|
            + |KeptIndices(rows, HasSentiment(Neutral))| == |rows|
    decreases |rows|
  {
    if rows != [] {
      SentimentCountsAddUp(rows[..|rows| - 1]);
    }
  }
}

=== FILE: Selection.dfy ===
/** Order-preserving filtering (`Array.prototype.filter`), described by the strictly
    increasing positions it keeps. Keeping positions rather than copies is what lets
    a filtered view name the very rows of the list it was taken from. */
module Selection {

  /** Strictly increasing positions. */
  ghost predicate Increasing(ix: seq<nat>) {
    forall a, b :: 0 <= a < b < |ix| ==> ix[a] < ix[b]
  }

  /** Every position is one of `xs`. */
  predicate InRange<T>(ix: seq<nat>, xs: seq<T>) {
    forall k :: 0 <= k < |ix| ==> ix[k] < |xs|
  }

  /** The positions `0 .. n-1`. */
  function AllIndices(n: nat): (ix: seq<nat>)
    ensures |ix| == n && forall k :: 0 <= k < n ==> ix[k] == k
    ensures Increasing(ix) && forall i :: i in ix <==> 0 <= i < n
  {
    var ix := seq(n, k requires 0 <= k < n => k);
    forall i: int ensures i in ix <==> 0 <= i < n {
      if i in ix {
        var k :| 0 <= k < |ix| && ix[k] == i;
      }
      if 0 <= i < n {
        assert ix[i] == i;
      }
    }
    ix
  }

  /** The positions of `xs`, in order, whose elements satisfy `p`. */
  function KeptIndices<T>(xs: seq<T>, p: T -> bool): (ix: seq<nat>)
    ensures Increasing(ix) && InRange(ix, xs)
    ensures forall i :: 0 <= i < |xs| ==> (i in ix <==> p(xs[i]))
    decreases |xs|
  {
    if xs == [] then []
    else
      var n := |xs| - 1;
      var ix := KeptIndices(xs[..n], p);
      assert forall i :: 0 <= i < n ==> xs[..n][i] == xs[i];
      if p(xs[n]) then ix + [n] else ix
  }

  /** The elements of `xs` at the positions `ix`, in that order. */
  function Pick<T>(xs: seq<T>, ix: seq<nat>): (ys: seq<T>)
    requires InRange(ix, xs)
    ensures |ys| == |ix| && forall k :: 0 <= k < |ix| ==> ys[k] == xs[ix[k]]
  {
    seq(|ix|, k requires 0 <= k < |ix| => xs[ix[k]])
  }

  /** `ys` is `xs` with exactly the elements that fail `p` taken out: the elements at
      a strictly increasing sequence of positions, which holds every position whose
      element satisfies `p` and no other. */
  ghost predicate Selects<T>(xs: seq<T>, p: T -> bool, ys: seq<T>) {
    exists ix :: Increasing(ix) && InRange(ix, xs) && ys == Pick(xs, ix)
      && forall i :: 0 <= i < |xs| ==> (i in ix <==> p(xs[i]))
  }

  /** `xs.filter(p)`: the elements satisfying `p`, every one of them, in their order. */
  function Filter<T>(xs: seq<T>, p: T -> bool): (ys: seq<T>)
    ensures |ys| <= |xs| && Selects(xs, p, ys)
    ensures forall y :: y in ys ==> y in xs && p(y)
    ensures forall x :: x in xs && p(x) ==> x in ys
  {
    KeptSelects(xs, p);
    KeptMembers(xs, p);
    Pick(xs, KeptIndices(xs, p))
  }

  /** The kept positions select the elements satisfying `p`, and no more of them than
      `xs` has. */
  lemma KeptSelects<T>(xs: seq<T>, p: T -> bool)
    ensures |KeptIndices(xs, p)| <= |xs| && Selects(xs, p, Pick(xs, KeptIndices(xs, p)))
  {
    var ix := KeptIndices(xs, p);
    IncreasingBounded(ix, |xs|);
  }

  /** The elements at the kept positions are exactly the elements satisfying `p`. */
  lemma KeptMembers<T>(xs: seq<T>, p: T -> bool)
    ensures forall y :: y in Pick(xs, KeptIndices(xs, p)) ==> y in xs && p(y)
    ensures forall x :: x in xs && p(x) ==> x in Pick(xs, KeptIndices(xs, p))
  {
    var ix := KeptIndices(xs, p);
    var ys := Pick(xs, ix);
    forall x | x in xs && p(x) ensures x in ys {
      var i :| 0 <= i < |xs| && xs[i] == x;
      var k :| 0 <= k < |ix| && ix[k] == i;
      assert ys[k] == x;
    }
  }

  /** A strictly increasing sequence of positions below `n` has at most `n` entries. */
  lemma {:induction false} IncreasingBounded(ix: seq<nat>, n: nat)
    requires Increasing(ix) && forall k :: 0 <= k < |ix| ==> ix[k] < n
    ensures |ix| <= n
    decreases n
  {
    if ix != [] {
      var m := ix[|ix| - 1];
      var front := ix[..|ix| - 1];
      assert forall k :: 0 <= k < |front| ==> front[k] < m;
      IncreasingBounded(front, m);
    }
  }

  /** A strictly increasing sequence of positions below `n` that misses one of them
      has fewer than `n` entries. */
  lemma {:induction false} IncreasingMissing(ix: seq<nat>, n: nat, d: nat)
    requires Increasing(ix) && forall k :: 0 <= k < |ix| ==> ix[k] < n
    requires d < n && d !in ix
    ensures |ix| < n
    decreases n
  {
    if ix != [] {
      var m := ix[|ix| - 1];
      var front := ix[..|ix| - 1];
      assert forall k :: 0 <= k < |front| ==> front[k] < m;
      if d < m {
        assert d !in front;
        IncreasingMissing(front, m, d);
      } else {
        IncreasingBounded(front, m);
      }
    }
  }

  /** A strictly increasing sequence is determined by the set of its entries. */
  lemma {:induction false} IncreasingUnique(ix: seq<nat>, jx: seq<nat>)
    requires Increasing(ix) && Increasing(jx)
    requires forall i :: i in ix <==> i in jx
    ensures ix == jx
    decreases |ix| + |jx|
  {
    assert ix != [] ==> ix[0] in jx;
    assert jx != [] ==> jx[0] in ix;
    if ix != [] && jx != [] {
      assert ix[0] in jx;
      assert jx[0] in ix;
      assert ix[0] == jx[0];
      forall i ensures i in ix[1..] <==> i in jx[1..] {
        if i in ix[1..] {
          assert i in jx;
          assert i != jx[0];
        }
        if i in jx[1..] {
          assert i in ix;
          assert i != ix[0];
        }
      }
      IncreasingUnique(ix[1..], jx[1..]);
    }
  }

  /** `KeptIndices` is THE order-preserving selection: any strictly increasing sequence
      of positions of `xs` that holds exactly the positions satisfying `p` equals it. */
  lemma KeptIndicesUnique<T>(xs: seq<T>, p: T -> bool, ix: seq<nat>)
    requires Increasing(ix) && InRange(ix, xs)
    requires forall i :: 0 <= i < |xs| ==> (i in ix <==> p(xs[i]))
    ensures ix == KeptIndices(xs, p)
  {
    var jx := KeptIndices(xs, p);
    forall i ensures i in ix <==> i in jx {
      if i in ix {
        var k :| 0 <= k < |ix| && ix[k] == i;
      }
      if i in jx {
        var k :| 0 <= k < |jx| && jx[k] == i;
      }
    }
    IncreasingUnique(ix, jx);
  }

  /** A predicate that holds of every element keeps every position, so `filter` returns
      the list itself. */
  lemma FilterKeepsAll<T>(xs: seq<T>, p: T -> bool)
    requires forall i :: 0 <= i < |xs| ==> p(xs[i])
    ensures KeptIndices(xs, p) == AllIndices(|xs|)
    ensures Filter(xs, p) == xs
  {
    KeptIndicesUnique(xs, p, AllIndices(|xs|));
  }

  /** A predicate that holds of no element keeps nothing. */
  lemma FilterKeepsNone<T>(xs: seq<T>, p: T -> bool)
    requires forall i :: 0 <= i < |xs| ==> !p(xs[i])
    ensures KeptIndices(xs, p) == [] && Filter(xs, p) == []
  {
    KeptIndicesUnique(xs, p, []);
  }

  /** Filtering looks only at the predicate's verdicts: two lists of the same length on
      which the predicates agree position by position keep the same positions. */
  lemma {:induction false} KeptIndicesAgree<T>(xs: seq<T>, p: T -> bool, ys: seq<T>, q: T -> bool)
    requires |xs| == |ys|
    requires forall i :: 0 <= i < |xs| ==> p(xs[i]) == q(ys[i])
    ensures KeptIndices(xs, p) == KeptIndices(ys, q)
    decreases |xs|
  {
    if xs != [] {
      var n := |xs| - 1;
      KeptIndicesAgree(xs[..n], p, ys[..n], q);
    }
  }

  /** There is one way only to filter a list: any two selections by the same predicate
      are equal. */
  lemma SelectsUnique<T>(xs: seq<T>, p: T -> bool, ys: seq<T>, zs: seq<T>)
    requires Selects(xs, p, ys) && Selects(xs, p, zs)
    ensures ys == zs
  {
    var ix :| Increasing(ix) && InRange(ix, xs) && ys == Pick(xs, ix)
      && forall i :: 0 <= i < |xs| ==> (i in ix <==> p(xs[i]));
    var jx :| Increasing(jx) && InRange(jx, xs) && zs == Pick(xs, jx)
      && forall i :: 0 <= i < |xs| ==> (i in jx <==> p(xs[i]));
    KeptIndicesUnique(xs, p, ix);
    KeptIndicesUnique(xs, p, jx);
  }
}

=== FILE: Text.dfy ===
/** The JavaScript string operations the core relies on: `trim`, `toLowerCase`,
    `replace(/\s+/g, "_")`, `includes` and `join`. */
module Text {

  /** The ECMAScript WhiteSpace and LineTerminator code points: what `trim()`
      strips and what the regular-expression class `\s` matches. */
  predicate IsSpace(c: char) {
    || c == '\t' || c == '\n' || c == '\U{B}' || c == '\U{C}' || c == '\r' || c == ' '
    || c == '\U{A0}' || c == '\U{1680}' || ('\U{2000}' <= c <= '\U{200A}')
    || c == '\U{2028}' || c == '\U{2029}' || c == '\U{202F}' || c == '\U{205F}'
    || c == '\U{3000}' || c == '\U{FEFF}'
  }

  predicate NoSpace(s: string) {
    forall i :: 0 <= i < |s| ==> !IsSpace(s[i])
  }

  predicate IsUpper(c: char) {
    'A' <= c <= 'Z'
  }

  predicate NoUpper(s: string) {
    forall i :: 0 <= i < |s| ==> !IsUpper(s[i])
  }

  function LowerChar(c: char): (d: char)
    ensures !IsUpper(d)
    ensures IsSpace(d) <==> IsSpace(c)
    ensures !IsUpper(c) ==> d == c
  {
    if IsUpper(c) then (c as int - 'A' as int + 'a' as int) as char else c
  }

  /** `toLowerCase()`, on the ASCII letters. */
  function Lower(s: string): (r: string)
    ensures |r| == |s| && NoUpper(r)
    ensures forall i :: 0 <= i < |s| ==> r[i] == LowerChar(s[i])
  {
    seq(|s|, i requires 0 <= i < |s| => LowerChar(s[i]))
  }

  /** Every character of `s` is whitespace. */
  predicate AllSpace(s: string) {
    forall i :: 0 <= i < |s| ==> IsSpace(s[i])
  }

  /** `trimStart()`: the longest suffix that does not start with whitespace. */
  function TrimStart(s: string): (r: string)
    ensures |r| <= |s| && r == s[|s| - |r|..]
    ensures AllSpace(s[..|s| - |r|])
    ensures r == [] || !IsSpace(r[0])
    decreases |s|
  {
    if s != [] && IsSpace(s[0]) then
      var r := TrimStart(s[1..]);
      assert s[..|s| - |r|] == [s[0]] + s[1..][..|s| - 1 - |r|];
      r
    else s
  }

  /** `trimEnd()`: the longest prefix that does not end with whitespace. */
  function TrimEnd(s: string): (r: string)
    ensures |r| <= |s| && r == s[..|r|]
    ensures AllSpace(s[|r|..])
    ensures r == [] || !IsSpace(r[|r| - 1])
    decreases |s|
  {
    if s != [] && IsSpace(s[|s| - 1]) then
      var r := TrimEnd(s[..|s| - 1]);
      assert s[|r|..] == s[..|s| - 1][|r|..] + [s[|s| - 1]];
      r
    else s
  }

  /** `trim()`: both ends, whitespace as `IsSpace` says. */
  function Trim(s: string): string {
    TrimEnd(TrimStart(s))
  }

  /** `replace(/\s+/g, "_")`: every maximal run of whitespace becomes one underscore. */
  function CollapseSpaces(s: string): (r: string)
    ensures NoSpace(r)
    decreases |s|
  {
    if s == [] then []
    else if IsSpace(s[0]) then "_" + CollapseSpaces(TrimStart(s[1..]))
    else [s[0]] + CollapseSpaces(s[1..])
  }

  /** Trimming whitespace off the front of whitespace followed by a text that does not
      start with whitespace leaves that text. */
  lemma TrimStartSpaces(w: string, s: string)
    requires AllSpace(w) && (s == [] || !IsSpace(s[0]))
    ensures TrimStart(w + s) == s
  {
    var ws := w + s;
    var r := TrimStart(ws);
    assert |r| == |s|;
    assert ws[|w|..] == s;
  }

  /** A text without whitespace is its own `trim()`. */
  lemma TrimNoSpace(s: string)
    requires NoSpace(s)
    ensures Trim(s) == s
  {
    assert [] + s == s && s + [] == s;
    TrimStartSpaces([], s);
    TrimEndSpaces(s, []);
  }

  /** The mirror image, at the end. */
  lemma TrimEndSpaces(s: string, w: string)
    requires AllSpace(w) && (s == [] || !IsSpace(s[|s| - 1]))
    ensures TrimEnd(s + w) == s
  {
    var sw := s + w;
    var r := TrimEnd(sw);
    assert |r| <= |s|;
    if s != [] {
      assert sw[|s| - 1] == s[|s| - 1];
    }
    assert |r| >= |s|;
    assert sw[..|s|] == s;
  }

  /** A character that is not whitespace is kept as it is. */
  lemma CollapseKeepsChar(c: char, s: string)
    requires !IsSpace(c)
    ensures CollapseSpaces([c] + s) == [c] + CollapseSpaces(s)
  {
    assert ([c] + s)[1..] == s;
  }

  /** A whole run of whitespace, up to the next other character or the end, becomes
      one `_`. */
  lemma CollapseRun(w: string, s: string)
    requires w != [] && AllSpace(w)
    requires s == [] || !IsSpace(s[0])
    ensures CollapseSpaces(w + s) == "_" + CollapseSpaces(s)
  {
    assert (w + s)[0] == w[0];
    assert (w + s)[1..] == w[1..] + s;
    TrimStartSpaces(w[1..], s);
  }

  /** A text without whitespace in front is kept as it is. */
  lemma {:induction false} CollapseKeepsWord(a: string, s: string)
    requires NoSpace(a)
    ensures CollapseSpaces(a + s) == a + CollapseSpaces(s)
    decreases |a|
  {
    if a != [] {
      assert a + s == [a[0]] + (a[1..] + s);
      CollapseKeepsChar(a[0], a[1..] + s);
      assert NoSpace(a[1..]);
      CollapseKeepsWord(a[1..], s);
      assert [a[0]] + a[1..] == a;
    } else {
      assert a + s == s;
    }
  }

  /** Lower-casing works character by character, so it splits over concatenation. */
  lemma LowerAppend(a: string, b: string)
    ensures Lower(a + b) == Lower(a) + Lower(b)
  {
  }

  /** Two words with whitespace between them, lower-cased and collapsed, are the
      lower-cased words joined by `_`. */
  lemma LowerTwoWords(a: string, gap: string, b: string)
    requires a != [] && NoSpace(a) && b != [] && NoSpace(b)
    requires gap != [] && AllSpace(gap)
    ensures CollapseSpaces(Lower(a + gap + b)) == Lower(a) + "_" + Lower(b)
  {
    LowerAppend(a, gap);
    LowerAppend(a + gap, b);
    var la, lg, lb := Lower(a), Lower(gap), Lower(b);
    assert Lower(a + gap + b) == la + (lg + lb);
    CollapseKeepsWord(la, lg + lb);
    CollapseTwoParts(lg, lb);
    assert la + ("_" + lb) == la + "_" + lb;
  }

  /** The run between the words becomes `_` and the second word is kept. */
  lemma CollapseTwoParts(w: string, b: string)
    requires w != [] && AllSpace(w) && b != [] && NoSpace(b)
    ensures CollapseSpaces(w + b) == "_" + b
  {
    CollapseRun(w, b);
    CollapseNoSpace(b);
  }

  /** Collapsing whitespace brings in no upper-case letter. */
  lemma {:induction false} CollapseKeepsNoUpper(s: string)
    requires NoUpper(s)
    ensures NoUpper(CollapseSpaces(s))
    decreases |s|
  {
    if s != [] {
      assert NoUpper(s[1..]);
      if IsSpace(s[0]) {
        NoUpperTrimStart(s[1..]);
        CollapseKeepsNoUpper(TrimStart(s[1..]));
      } else {
        CollapseKeepsNoUpper(s[1..]);
      }
    }
  }

  /** A text without whitespace is left as it is. */
  lemma {:induction false} CollapseNoSpace(s: string)
    requires NoSpace(s)
    ensures CollapseSpaces(s) == s
    decreases |s|
  {
    if s != [] {
      assert NoSpace(s[1..]);
      CollapseNoSpace(s[1..]);
      assert [s[0]] + s[1..] == s;
    }
  }

  /** Trimming keeps a text free of upper-case letters. */
  lemma NoUpperTrimStart(s: string)
    requires NoUpper(s)
    ensures NoUpper(TrimStart(s))
  {
    var t := TrimStart(s);
    forall i | 0 <= i < |t| ensures !IsUpper(t[i]) {
      assert t[i] == s[|s| - |t| + i];
    }
  }

  /** `sub` occurs in `s` starting at position `i`. */
  predicate OccursAt(s: string, sub: string, i: int) {
    0 <= i <= |s| - |sub| && s[i..i + |sub|] == sub
  }

  /** `s.includes(sub)`: `sub` occurs in `s` at some position. */
  function Contains(s: string, sub: string): (b: bool)
    ensures b <==> exists i :: OccursAt(s, sub, i)
    decreases |s|
  {
    if |s| < |sub| then false
    else if s[..|sub|] == sub then assert OccursAt(s, sub, 0); true
    else
      var b := Contains(s[1..], sub);
      assert b ==> exists i :: OccursAt(s, sub, i) by {
        if b {
          var i :| OccursAt(s[1..], sub, i);
          assert s[1..][i..i + |sub|] == s[i + 1..i + 1 + |sub|];
          assert OccursAt(s, sub, i + 1);
        }
      }
      assert (exists i :: OccursAt(s, sub, i)) ==> b by {
        if exists i :: OccursAt(s, sub, i) {
          var i :| OccursAt(s, sub, i);
          assert i != 0;
          assert s[1..][i - 1..i - 1 + |sub|] == s[i..i + |sub|];
          assert OccursAt(s[1..], sub, i - 1);
        }
      }
      b
  }

  /** `parts.join(sep)`: the parts with one separator between neighbours. */
  function Join(parts: seq<string>, sep: char): string
    decreases |parts|
  {
    if parts == [] then ""
    else if |parts| == 1 then parts[0]
    else parts[0] + [sep] + Join(parts[1..], sep)
  }

  /** `replace(/"/g, '""')`: every double quote doubled. */
  function DoubleQuotes(s: string): string
    decreases |s|
  {
    if s == [] then ""
    else if s[0] == '"' then "\"\"" + DoubleQuotes(s[1..])
    else [s[0]] + DoubleQuotes(s[1..])
  }
}
